=== FILE: README.md ===
# ics-proxy rule engine, modelled in Dafny

ics-proxy serves iCalendar feeds rewritten by rules taken from a JSON
configuration. A *filtered* calendar fetches one upstream feed, which is
parsed to jCal (RFC 7265). Every `vevent` entry is run through an ordered list
of rules. Each rule is a boolean filter tree over the event's property lines,
plus an ordered list of transforms (`remove`, `edit`, `editRegex`). A *merged*
calendar concatenates several feeds; its private sources contribute only
their events.

The model covers the following:

- **Configuration compiler.** `Calendars.CompileCalendar`, `Filters.CompileFilter` and
  `Operations.CompileOp` map the configuration JSON to a descriptor or to the
  error the code throws. Every error case is kept, including the TypeErrors
  JavaScript raises on `null`.
- **Runtime semantics of compiled filters and transforms.** See `Filters.Eval`,
  `Conditions.Compare` and `Operations.Apply`. Exceptions at evaluation time are
  `Fault`s that abort the request.
- **Per-event rule loop of the request handler and of the updater.** These are
  methods over an explicit store of record objects. That way the sharing of one
  record by every emitted copy is modelled literally. Both loops are proved
  equal to the functional reference `Pipeline.ApplyRules`.
- **Merge loop, configuration loader and reload.**
- **The three HTTP handlers.** Fetching is a parameter.

Each compiler is paired with a renderer and a round-trip lemma. Each loop is
paired with a reference definition.

Module layout:

| file | module | source |
|---|---|---|
| results.dfy | Results | Option, Result, error vocabularies |
| json.dfy | Json | parsed configuration values, `hasOwnProperty`, truthiness |
| jcal.dfy | Jcal | jCal components and property lines |
| host.dfy | Host | the regular-expression engine, as a parameter |
| conditions.dfy | Conditions | `parseIfOperand`, `allowedIfOperators` |
| filters.dfy | Filters | `parseFilter` and the compiled filter closures |
| operations.dfy | Operations | `allowedOperations`, the operation-list compiler |
| calendars.dfy | Calendars | `parseFilteredCalendar`, `parseMergedCalendar`, `parseCalendar` |
| pipeline.dfy | Pipeline | reference semantics of the rule loop |
| store.dfy | Store | record objects shared by reference |
| request_loop.dfy | RequestLoop | the rule loop of `src/index.js` |
| update_loop.dfy | UpdateLoop | the rule loop of `src/update-calendar.js` |
| merge.dfy | Merge | the merge loop of `src/merge-calendars.js` |
| loader.dfy | Loader | `loadConfig` and the reload on file change |
| handlers.dfy | Handlers | the request, update and merge handlers |

## Model

| member | source | states |
|---|---|---|
| Json.HasOwn | src/calendar.js:96 | `hasOwnProperty` throws exactly on `null` and holds exactly for an object's own key. |
| Json.Truthy | src/calendar.js:124-129 | A value is truthy exactly when it is not `null`, `false`, `0` or the empty string. |
| Jcal.FirstNamed | src/calendar.js:46-52 | The index of the first line with the given name, whatever its length; None exactly when no line has that name. |
| Jcal.FirstValue | src/calendar.js:79-84 | Some exactly when some line with that name has a fourth element. The result is the value of the earliest such line; lines without a value are skipped. |
| Conditions.ParseOperand | src/calendar.js:74-88 | An operand is a field reference exactly when it starts with `event.`. Rendering the parsed operand gives back the string. |
| Conditions.OperandRoundTrip | src/calendar.js:74-88 | Every operand that some string denotes is parsed back from its rendering. |
| Conditions.Resolve | src/calendar.js:74-89 | A literal resolves to itself. A field resolves to the first valued line of that name, or to undefined when there is none. |
| Conditions.LookupOperator | src/calendar.js:109-118 | The operator found is the one whose table key equals the lower-cased string. None means no key equals it. |
| Conditions.LookupSymbol | src/calendar.js:2-33 | Every table operator is found under its own key, and under a string exactly when that string lower-cases to the key. |
| Conditions.Lower | src/calendar.js:109 | `toLowerCase` keeps the length, leaves no upper-case ASCII letter in its result, and leaves every character that is not an upper-case letter as it was. |
| Conditions.OperatorCaseInsensitive | src/calendar.js:109-118 | The operator is matched case-insensitively: a table key spelled with any of its letters in upper case, such as `CONTAINS` or `Regex`, finds the same operator. |
| Conditions.Less | src/calendar.js:15-26 | String `<` is JavaScript's: a proper prefix is less than the longer string, a smaller first character decides, and no string is less than itself. |
| Conditions.LessIrreflexive | src/calendar.js:15-26 | No string is less than itself. |
| Conditions.LessTrichotomy | src/calendar.js:15-26 | String `<` is total and asymmetric: of two distinct strings exactly one is less. |
| Conditions.LessTransitive | src/calendar.js:15-26 | String `<` is transitive. |
| Conditions.IndexOf | src/calendar.js:27-29 | `indexOf` from a start within the string: the first occurrence at or after the start, or -1 exactly when there is none. |
| Conditions.EqualityOperators | src/calendar.js:3-14 | On strings and undefined, `==` agrees with `===` and `!=` with `!==`. Each inequality is the negation of its equality. |
| Conditions.OrderingOperators | src/calendar.js:15-26 | On two present values `<` is string `<`, so a proper prefix is less and not greater. `>=` is `>` or equal, and `<=` is `<` or equal. `<` is `>` flipped. Each of `>`, `>=`, `<` and `<=` against undefined is false. |
| Conditions.Compare | src/calendar.js:2-33 | An operator throws only for `contains` on an undefined left value and for `regex` on a pattern that does not compile. On two present values `<` is string `<` and `>` is string `<` reversed; against undefined every ordering is false. `contains` holds exactly when the right value, or the text "undefined", occurs in the left. `regex` tests the left value, or "undefined", against the right pattern, or the empty one. |
| Conditions.ContainsMeansSubstring | src/calendar.js:27-29 | `contains` holds exactly when the right value occurs in the left. The empty string is always contained. |
| Filters.CompileIf | src/calendar.js:103-130 | An `if` node compiles exactly when `left`, `operator` and `right` are strings and the operator is in the table. Each operand is the one its string denotes: a field reference exactly when it starts with `event.`, and otherwise the literal text. The node keeps the lower-cased operator. It is negated exactly when `negate` is present and truthy. |
| Filters.CompileFilter | src/calendar.js:91-152 | A value whose `typeof` is not 'object' is rejected. An array, or an object without `key`, compiles to the absent filter. A key other than `if`, `and` or `or` is an invalid key. An `if` node compiles as an `if` node. An `and` or `or` node missing `left` or `right` is rejected. Otherwise it compiles exactly when both children do, to `And` or `Or` of the compiled children as the key says. Every result is expressible. |
| Filters.Eval | src/calendar.js:124-130 | Evaluation throws only when the tree holds a missing predicate, a `contains` or a `regex` node. |
| Filters.AbsentThrows | src/calendar.js:96-150 | An object without `key` compiles to no predicate, and calling it throws. |
| Filters.IfFieldEquals | src/calendar.js:74-89 | A configured `event.<k> == t` holds exactly when the first valued line called `k` holds `t`. |
| Filters.IfFieldContains | src/calendar.js:27-29 | `event.<k> contains t`, compiled as `CompileFieldNode` states, throws when `k` has no value. Otherwise it holds exactly when `t` occurs in that value. |
| Filters.IfFieldBefore | src/calendar.js:21-23 | A configured `event.<k> < t` holds exactly when `k` has a value that comes before `t` as strings. |
| Filters.CompileFieldNode | src/calendar.js:103-130 | An `if` node comparing `event.<k>` with a literal compiles to that comparison of field `k` with the literal, not negated. |
| Filters.EvalFieldNode | src/calendar.js:124-127 | Such a comparison applies the operator to the first value of field `k` and the literal. |
| Filters.Connectives | src/calendar.js:139-147 | When it does not throw, `and` holds exactly when both children hold and `or` exactly when one does. |
| Filters.FilterRoundTrip | src/calendar.js:91-152 | Every expressible filter is what its own JSON compiles to. |
| Filters.UnknownOperatorRejected | src/calendar.js:116-118 | An `if` node is rejected as an invalid operator exactly when its lower-cased operator is in no table key. |
| Filters.ShortCircuit | src/calendar.js:139-147 | `and` after a false left child is false, and `or` after a true one is true, whatever the right child does. A throwing left child throws from both. |
| Filters.Negation | src/calendar.js:124-130 | `negate` inverts the operator's answer and never its failure. A negated `==` or `===` is the matching `!=` or `!==`. |
| Filters.EvalFrame | src/calendar.js:74-89 | A filter's answer depends only on the values of the fields it reads. |
| Operations.SetValue | src/calendar.js:49 | Writing element 3 sets the value: it appends to a three-element line and keeps the other elements. |
| Operations.Apply | src/calendar.js:34-72 | A transform returns the removal signal exactly when it is `remove`. It throws only for `editRegex`, when the pattern does not compile or the first line with the key has no value. Otherwise every line keeps its name and place. `editRegex` sets the first matching line's value to the replacement of the pattern in the old value. With no such line, or for an argument-less entry, the record comes back as it was. |
| Operations.EditRecord | src/calendar.js:41-54 | `edit` changes only the first line with the key, and with no such line changes nothing. |
| Operations.EditResolves | src/calendar.js:41-54 | After `edit` the key resolves to the new value, and every other field resolves as before. |
| Operations.EditIdempotent | src/calendar.js:41-54 | Applying `edit` twice is applying it once. |
| Operations.EditRegexLocal | src/calendar.js:56-71 | `editRegex` changes at most the value of the first line with the key, which becomes the replacement of the pattern in the old value. Length, names, parameters, types and later values stay. With no such line it changes nothing. |
| Operations.CompileOpAsWritten | src/calendar.js:214-239 | As written, an operation compiles exactly when it is `["remove"]`, `["edit"]` or `["editRegex"]`. Every failure is an invalid operation. |
| Operations.WrittenOpRoundTrip | src/calendar.js:214-239 | Each of the three operations the compiler as written accepts is compiled back from its JSON. |
| Operations.CompiledOpEffect | src/calendar.js:221-239 | As written, a compiled operation is the removal signal or the identity on records. |
| Operations.EditArgumentsRefused | src/calendar.js:221-223 | `["edit", "SUMMARY", "Busy"]` is refused as written, and compiles to an edit when corrected. The corrected compiler refuses `["edit", "SUMMARY"]`. |
| Operations.Arity | src/calendar.js:34-72 | The catalog's sizes exist exactly for `remove`, `edit` and `editRegex`. |
| Operations.CompileOp | src/calendar.js:214-239 | Corrected: an operation compiles exactly when it is an array of strings whose length is the named entry's catalog size. Its JSON is the input. |
| Operations.OpRoundTrip | src/calendar.js:214-239 | Every operation with bound arguments is compiled back from its JSON. |
| Operations.CompileOps | src/calendar.js:211-240 | In either dialect, the list compiles exactly when every element does. The result keeps the order and length. |
| Calendars.ValidName | src/calendar.js:312-315 | A name is a non-empty string of letters, digits, `_` and `-`, so it holds neither a dot nor a slash. |
| Calendars.CompileRule | src/calendar.js:179-245 | A rule compiles exactly when it has a compiling `filter` and an `operations` array that the dialect's operation compiler accepts. It keeps both results. `null` throws a TypeError. |
| Calendars.CompileRules | src/calendar.js:167-247 | The rule list compiles exactly when every rule does, in order. |
| Calendars.CompileFiltered | src/calendar.js:154-255 | Requires a string `url` that passes the URL pattern. Rules are optional; a missing `rules` gives none. A missing `url` is its own error. |
| Calendars.CompileSource | src/calendar.js:277-302 | A source compiles exactly when it is an object with a string `url` and a boolean `private`, and keeps both. |
| Calendars.CompileSources | src/calendar.js:275-302 | The source list compiles exactly when every source does, in order. |
| Calendars.CompileMerged | src/calendar.js:257-309 | Requires a non-empty `urls` array of valid sources. The empty array is its own error. |
| Calendars.CompileCalendar | src/calendar.js:311-336 | An invalid name is rejected first. Then a value that is not an object is rejected, `null` throws, and a missing `type` or one other than "filtered" or "merged" is its own error. A "filtered" configuration compiles as a filtered calendar, with its `url` and rules, and a "merged" one as a merged calendar, with its sources. Every result is expressible in its dialect. |
| Calendars.RuleRoundTrip | src/calendar.js:179-245 | Every expressible rule is what its JSON compiles to. |
| Calendars.CalendarRoundTrip | src/calendar.js:311-336 | In either dialect, every expressible descriptor is what its JSON compiles to, with rules, operations and sources in order. |
| Pipeline.RunOps | src/index.js:85-93 | A chain that completes reports removal exactly when it holds `remove`. Every line keeps its name and place. A chain without `editRegex` never throws. |
| Pipeline.RunRule | src/index.js:80-97 | A throwing predicate throws. A false predicate leaves the record and emits it. The rule removes the event exactly when its predicate holds and its chain completes holding `remove`. |
| Pipeline.RunRules | src/index.js:79-98 | Running n rules emits between none and n copies. |
| Pipeline.ProcessEntry | src/index.js:68-98 | An entry that is not an event is passed on once. An event comes out at most once per rule, and every copy is the same entry with the same lines by name. |
| Pipeline.ApplyRules | src/index.js:66-99 | The output extends the entries already collected. |
| Pipeline.ApplyRulesStep | src/index.js:68-99 | One step of the entry loop appends the entry's output, or ends the loop with its exception. |
| Pipeline.ApplyRulesCompletes | src/index.js:66-99 | The loop completes exactly when no entry's rules throw. |
| Pipeline.FilterDocument | src/index.js:101 | Replacing the entry list keeps the document's name and properties. |
| Pipeline.RemovalDominance | src/index.js:86-96 | Transforms after a removal signal never run, and the chain reports removal. The record keeps what the earlier transforms did, for the next rule to see. |
| Pipeline.NoRuleMatches | src/index.js:79-84 | When no predicate holds, the record never changes and every rule emits one copy. |
| Pipeline.UnmatchedEvent | src/index.js:68-98 | An event matched by none of n rules is emitted n times unchanged, so with no rules it vanishes. |
| Pipeline.CompiledChainKeepsRecord | src/index.js:85-97 | A chain of operations the compiler as written accepts leaves the record as it was. It removes exactly when it holds `remove`. |
| Pipeline.CompiledRulesKeepRecord | src/index.js:79-98 | Under such rules the record is unchanged. The copy count is the number of rules whose predicate is false or whose operations hold no `remove`. |
| Pipeline.NonEventsPassThrough | src/index.js:68-72 | Entries that are not events come out once each, unchanged and in order. |
| Pipeline.EntryNonEvents | src/index.js:68-98 | An entry that is not an event appears in its own output exactly once. An event's output holds no entry other than events. |
| Pipeline.NoRulesDropsEvents | src/index.js:68-99 | With no rules, the output is exactly the non-event entries. |
| Pipeline.AsWrittenCalendarsNeverEdit | src/calendar.js:221-239 | No filtered descriptor the compiler as written can produce ever changes an event's record. |
| Pipeline.EarlierCopyShowsLaterEdit | src/index.js:79-98 | A copy emitted by an earlier rule carries the edit a later rule makes, because every copy shares one record. |
| Store.ApplyInPlace | src/calendar.js:34-72 | A transform changes only the record object it was given. It returns that same reference or the removal signal, and a removal leaves every record as it was. |
| RequestLoop.RunChain | src/index.js:85-93 | The transforms run in place on one record object, in order, and stop at the first removal signal. The outcome is the reference chain's. |
| RequestLoop.EventRules | src/index.js:79-98 | The rule loop over one event pushes the entry once per rule that does not remove it. It reaches the reference semantics' copy count and final record, and changes no other record. |
| UpdateLoop.EventRulesWriteBack | src/update-calendar.js:33-53 | The updater's rule loop, write-back included, leaves the entry pointing at the same record. Its copies and record are the reference semantics'. |
| RequestLoop.FilterEntries | src/index.js:66-99 | The handler's loop over shared record objects produces the reference semantics' entry list, faults included. |
| UpdateLoop.UpdateEntries | src/update-calendar.js:20-54 | The updater's loop, write-back included, produces the same list as the request handler. |
| Loader.LoadConfig | src/index.js:9-20 | A load succeeds exactly when every calendar compiles to a filtered descriptor. The map then has the same names and holds the compiled descriptors. |
| Loader.Reload | src/index.js:24-32 | A failed reload keeps the current map. A successful one installs the newly loaded map. |
| Loader.MergedBlocksLoad | src/index.js:14-17 | A configuration holding a merged calendar never loads. |
| Merge.Contribution | src/merge-calendars.js:26-38 | A public source contributes all its entries. A private one contributes only events taken from its own entries. |
| Merge.Contributions | src/merge-calendars.js:8-41 | Every merged entry comes from some source's document, and every merged entry that is not an event comes from a public source. |
| Merge.PrivateEvents | src/merge-calendars.js:27-35 | The private-source loop keeps exactly the events, in order. |
| Merge.MergeDocuments | src/merge-calendars.js:5-41 | Succeeds exactly when there is a source. The result is the first document with its entries replaced by every source's contribution in order. |
| Merge.MergedSplit | src/merge-calendars.js:8-41 | The merged events are all sources' events, in order. The merged non-events are exactly the public sources' non-events. |
| Handlers.Respond | src/index.js:51-105 | A failed fetch is handed on, and an upstream status other than 200 gets a 500 naming that status. A served document is the 200 upstream document, with its name, properties and non-event entries kept. |
| Handlers.ServeCalendar | src/index.js:41-106 | An unknown name gets a 404 and any known one gets the filtered calendar's response. A failed fetch is handed on, and a non-200 upstream gets a 500. |
| Handlers.UpdateAsWritten | src/update-calendar.js:4-11 | As written, the updater never serves a calendar and never reaches its rule loop. |
| Handlers.UpdateFilteredCalendar | src/update-calendar.js:4-60 | Corrected, the updater gives the filtered calendar's response. When it serves, the document is the filtered upstream document. |
| Handlers.UpdateTypoWitness | src/update-calendar.js:7 | Given an upstream answering 200, the corrected updater serves while the one as written hands on a ReferenceError. |
| Handlers.FetchAll | src/merge-calendars.js:8-19 | Fetching succeeds exactly when every source answers 200, and the documents are the answers in source order. |
| Handlers.MergeCalendars | src/merge-calendars.js:4-46 | The first failed fetch decides the response. Otherwise the merged document is served. |

## Left out

- HTTP, Express routing, the error middleware, logging and `async` are not modelled. A handler's outcome is a `Response` value.
- `axios.get` is the `fetch` parameter. `ICAL.parse` and `ICAL.Component#toString` are not modelled: documents are jCal values, and a body that fails to parse is not represented.
- Reading and watching `config.json` is left out. The loader receives the parsed top-level object as a map.
- A top-level configuration that is not an object is left out. An array or a string would make `for…in` visit index names.
- Key order and duplicate keys of JSON objects are left out, because objects are maps. So is which error comes first when several names fail; error messages are not modelled either.
- Regular expressions are the `RegexEngine` parameter, and the URL pattern of a filtered calendar is the `urlOk` parameter. The calendar-name pattern is modelled exactly.
- Lines shorter than three elements and values that are not strings are not representable. JavaScript's coercions on such values are therefore out of scope.
- Conditions.Less compares characters by code point, while JavaScript compares UTF-16 code units. The two differ only for strings with characters outside the Basic Multilingual Plane.
- Conditions.Lower lower-cases ASCII letters only. No other character lowers into an operator key, so the table lookup is unaffected.
- Names inherited from `Object.prototype` are left out: `config["constructor"]` in the request handler, and an own `hasOwnProperty` key shadowing the method. So is a calendar named `__proto__`, which passes the name pattern. The loader's assignment would replace the map's prototype instead of adding an entry, and afterwards a name such as `url` would resolve through that prototype in the request handler instead of getting a 404.
- Handlers.ServeCalendar requires every loaded descriptor to be filtered, which is what `Loader.LoadConfig` guarantees. A merged descriptor has no `url` or `rules` for that handler.
- Handlers.Respond treats the status check of `axios.get` as part of the `fetch` parameter. With axios's default `validateStatus`, a non-2xx answer rejects the request and reaches the error handler as a failed fetch. So `BadUpstream` arises in practice only for a 2xx status other than 200.
- Handlers.MergeCalendars fetches every source before merging. The code fetches and merges source by source, which has the same outcome because merging has no effect besides logging.
- Handlers.UpdateFilteredCalendar takes the descriptor's `url` and `rules` directly rather than the descriptor.
- Handlers.UpdateFilteredCalendar and Handlers.MergeCalendars have no caller in the repository. They are modelled as exported.
- The corrected Operations.CompileOp also rejects non-string arguments. Values in this model are strings; the code would pass them to the transform uncoerced.
- Loader.LoadConfig leaves open the order in which names are visited. That order only decides which failure is logged.

## Findings

| source | as written | input that shows it | evidently intended | confidence | as-written member | corrected member |
|---|---|---|---|---|---|---|
| src/calendar.js:221-223 | every operation array must have exactly one element, and the catalog's `size` (3 for `edit`, 4 for `editRegex`) is never read | `["edit", "SUMMARY", "Busy"]` is rejected as an invalid operation; `["edit"]` compiles to a transform that edits nothing | the length must equal the catalog size of the named operation | high; not executed | Operations.CompileOpAsWritten (with Operations.EditArgumentsRefused and Pipeline.CompiledChainKeepsRecord) | Operations.CompileOp (with Operations.OpRoundTrip) |
| src/update-calendar.js:7 | the URL is read from `calenderConf`, a name that is never declared | any call, e.g. an upstream answering 200 with an empty calendar: the ReferenceError is caught and handed to the error handler | read `calendarConf.url`, the handler's own parameter | high; not executed | Handlers.UpdateAsWritten (with Handlers.UpdateTypoWitness) | Handlers.UpdateFilteredCalendar |

Each finding's as-written member models the code. Its corrected member carries the evidently intended property. The calendar compiler and the loader take a `Dialect` naming the operation compiler they use. `AsWritten` is the code as it is; `Corrected` uses `Operations.CompileOp`. Their contracts and round trips hold in both dialects. The corrected updater runs the same rule loop as the request handler.

=== FILE: calendars.dfy ===
/** The calendar descriptor compiler (`parseCalendar`,
    `parseFilteredCalendar`, `parseMergedCalendar`): one calendar's JSON
    configuration becomes a filtered calendar (source URL and ordered rules)
    or a merged calendar (ordered source list), or the compiler throws. The
    compiler is parameterised by the operation compiler it uses (`Dialect`):
    `AsWritten` is the code, `Corrected` honours the catalog's arities. */
module Calendars {
  import opened Results
  import opened Json
  import opened Filters
  import opened Operations

  datatype Rule = Rule(filter: Filter, ops: seq<Op>)

  datatype Source = Source(url: string, isPrivate: bool)

  datatype Calendar =
    | Filtered(name: string, url: string, rules: seq<Rule>)
    | Merged(name: string, urls: seq<Source>)

  /** A character of the name pattern `[a-zA-Z0-9_\-]`. */
  predicate NameChar(c: char) {
    ('a' <= c <= 'z') || ('A' <= c <= 'Z') || ('0' <= c <= '9') || c == '_' || c == '-'
  }

  /** The name pattern `^[a-zA-Z0-9_\-]+$`: a name can hold neither a dot
      nor a slash, so `<name>.ics` always splits back into the name. */
  predicate ValidName(s: string)
    ensures ValidName(s) <==> s != [] && forall c :: c in s ==> NameChar(c)
    ensures ValidName(s) ==> '.' !in s && '/' !in s
  {
    |s| > 0 && forall i :: 0 <= i < |s| ==> NameChar(s[i])
  }

  /** Compiles one rule: its filter first, then its operations. */
  function CompileRule(j: Json, d: Dialect): (r: Result<Rule, ConfigError>)
    ensures r.Success? ==>
              && j.JObject? && "filter" in j.fields && "operations" in j.fields
              && CompileFilter(j.fields["filter"]) == Success(r.value.filter)
              && j.fields["operations"].JArray?
              && CompileOps(d, j.fields["operations"].items) == Success(r.value.ops)
    ensures r.Success? <==>
              && j.JObject? && "filter" in j.fields && "operations" in j.fields
              && CompileFilter(j.fields["filter"]).Success?
              && j.fields["operations"].JArray?
              && CompileOps(d, j.fields["operations"].items).Success?
    ensures j.JNull? ==> r == Failure(TypeError)
  {
    match HasOwn(j, "filter")
    case None => Failure(TypeError)
    case Some(false) => Failure(MissingFilter)
    case Some(true) =>
      var filter := j.fields["filter"];
      if !IsObjectLike(filter) then Failure(InvalidFilter)
      else
        var f :- CompileFilter(filter);
        if "operations" !in j.fields then Failure(MissingOperations)
        else if !j.fields["operations"].JArray? then Failure(InvalidOperation)
        else
          var ops :- CompileOps(d, j.fields["operations"].items);
          Success(Rule(f, ops))
  }

  /** Compiles a rule list, keeping its order; the first bad rule throws. */
  function CompileRules(items: seq<Json>, d: Dialect): (r: Result<seq<Rule>, ConfigError>)
    ensures r.Success? <==> forall i :: 0 <= i < |items| ==> CompileRule(items[i], d).Success?
    ensures r.Success? ==> |r.value| == |items| && forall i :: 0 <= i < |items| ==> r.value[i] == CompileRule(items[i], d).value
  {
    if |items| == 0 then Success([])
    else
      var rule :- CompileRule(items[0], d);
      var rest :- CompileRules(items[1..], d);
      assert forall i :: 1 <= i < |items| ==> items[i] == items[1..][i - 1];
      Success([rule] + rest)
  }

  /** A filtered calendar: a string `url` that passes the URL pattern
      (`urlOk`), and an optional array of rules. */
  function CompileFiltered(name: string, fields: map<string, Json>, urlOk: string -> bool, d: Dialect): (r: Result<Calendar, ConfigError>)
    ensures r.Success? <==>
              && "url" in fields && fields["url"].JString? && urlOk(fields["url"].s)
              && ("rules" in fields ==> fields["rules"].JArray? && CompileRules(fields["rules"].items, d).Success?)
    ensures r.Success? ==> r.value.Filtered? && r.value.name == name && r.value.url == fields["url"].s
    ensures r.Success? ==> r.value.rules == if "rules" in fields then CompileRules(fields["rules"].items, d).value else []
    ensures "url" !in fields ==> r == Failure(MissingUrl)
  {
    if "url" !in fields then Failure(MissingUrl)
    else if !fields["url"].JString? || !urlOk(fields["url"].s) then Failure(InvalidUrl)
    else if "rules" !in fields then Success(Filtered(name, fields["url"].s, []))
    else if !fields["rules"].JArray? then Failure(InvalidRules)
    else
      var rules :- CompileRules(fields["rules"].items, d);
      Success(Filtered(name, fields["url"].s, rules))
  }

  /** One entry of a merged calendar's `urls`. */
  function CompileSource(j: Json): (r: Result<Source, ConfigError>)
    ensures r.Success? <==>
              && j.JObject? && "url" in j.fields && j.fields["url"].JString?
              && "private" in j.fields && j.fields["private"].JBool?
    ensures r.Success? ==> r.value == Source(j.fields["url"].s, j.fields["private"].b)
  {
    if !IsObjectLike(j) then Failure(InvalidUrl)
    else
      match HasOwn(j, "url")
      case None => Failure(TypeError)
      case Some(false) => Failure(MissingUrl)
      case Some(true) =>
        if !j.fields["url"].JString? then Failure(InvalidUrl)
        else if "private" !in j.fields then Failure(MissingPrivate)
        else if !j.fields["private"].JBool? then Failure(InvalidPrivate)
        else Success(Source(j.fields["url"].s, j.fields["private"].b))
  }

  function CompileSources(items: seq<Json>): (r: Result<seq<Source>, ConfigError>)
    ensures r.Success? <==> forall i :: 0 <= i < |items| ==> CompileSource(items[i]).Success?
    ensures r.Success? ==> |r.value| == |items| && forall i :: 0 <= i < |items| ==> r.value[i] == CompileSource(items[i]).value
  {
    if |items| == 0 then Success([])
    else
      var s :- CompileSource(items[0]);
      var rest :- CompileSources(items[1..]);
      assert forall i :: 1 <= i < |items| ==> items[i] == items[1..][i - 1];
      Success([s] + rest)
  }

  /** A merged calendar: a non-empty array `urls` of objects with a string
      `url` and a boolean `private`, kept in order. */
  function CompileMerged(name: string, fields: map<string, Json>): (r: Result<Calendar, ConfigError>)
    ensures r.Success? <==>
              && "urls" in fields && fields["urls"].JArray? && |fields["urls"].items| > 0
              && CompileSources(fields["urls"].items).Success?
    ensures r.Success? ==> r.value == Merged(name, CompileSources(fields["urls"].items).value)
    ensures "urls" in fields && fields["urls"] == JArray([]) ==> r == Failure(EmptyUrls)
  {
    if "urls" !in fields then Failure(MissingUrls)
    else if !fields["urls"].JArray? then Failure(InvalidUrls)
    else if |fields["urls"].items| == 0 then Failure(EmptyUrls)
    else
      var urls :- CompileSources(fields["urls"].items);
      Success(Merged(name, urls))
  }

  /** Compiles one calendar's configuration under its name. */
  function CompileCalendar(name: string, cfg: Json, urlOk: string -> bool, d: Dialect): (r: Result<Calendar, ConfigError>)
    ensures !ValidName(name) ==> r == Failure(InvalidName)
    ensures r.Success? ==> ValidName(name) && r.value.name == name && cfg.JObject? && "type" in cfg.fields
    ensures r.Success? ==> (r.value.Filtered? <==> cfg.fields["type"] == JString("filtered"))
    ensures r.Success? ==> (r.value.Merged? <==> cfg.fields["type"] == JString("merged"))
    ensures r.Success? ==> Expressible(r.value, urlOk, d)
    ensures ValidName(name) && !IsObjectLike(cfg) ==> r == Failure(NotAnObject)
    ensures ValidName(name) && cfg.JNull? ==> r == Failure(TypeError)
    ensures ValidName(name) && cfg.JObject? ==>
              && ("type" !in cfg.fields ==> r == Failure(MissingType))
              && ("type" in cfg.fields && cfg.fields["type"] == JString("filtered") ==>
                    r == CompileFiltered(name, cfg.fields, urlOk, d))
              && ("type" in cfg.fields && cfg.fields["type"] == JString("merged") ==>
                    r == CompileMerged(name, cfg.fields))
              && ("type" in cfg.fields && cfg.fields["type"] !in {JString("filtered"), JString("merged")} ==>
                    r == Failure(InvalidType))
  {
    if !ValidName(name) then Failure(InvalidName)
    else if !IsObjectLike(cfg) then Failure(NotAnObject)
    else
      match HasOwn(cfg, "type")
      case None => Failure(TypeError)
      case Some(false) => Failure(MissingType)
      case Some(true) =>
        var t := cfg.fields["type"];
        if t == JString("filtered") then
          ExpressibleFiltered(name, cfg.fields, urlOk, d);
          CompileFiltered(name, cfg.fields, urlOk, d)
        else if t == JString("merged") then CompileMerged(name, cfg.fields)
        else Failure(InvalidType)
  }

  /** The descriptors some configuration compiles to. */
  predicate Expressible(c: Calendar, urlOk: string -> bool, d: Dialect) {
    && ValidName(c.name)
    && match c
       case Filtered(_, url, rules) =>
         && urlOk(url)
         && forall i :: 0 <= i < |rules| ==> ExpressibleRule(rules[i], d)
       case Merged(_, urls) => |urls| > 0
  }

  predicate ExpressibleRule(r: Rule, d: Dialect) {
    ExpressibleFilter(r.filter) && forall k :: 0 <= k < |r.ops| ==> CompilableIn(d, r.ops[k])
  }

  lemma ExpressibleFiltered(name: string, fields: map<string, Json>, urlOk: string -> bool, d: Dialect)
    requires ValidName(name)
    ensures CompileFiltered(name, fields, urlOk, d).Success? ==> Expressible(CompileFiltered(name, fields, urlOk, d).value, urlOk, d)
  {
    if CompileFiltered(name, fields, urlOk, d).Failure? {
      return;
    }
    var c := CompileFiltered(name, fields, urlOk, d).value;
    forall i | 0 <= i < |c.rules|
      ensures ExpressibleRule(c.rules[i], d)
    {
      var items := fields["rules"].items;
      var j := items[i];
      assert c.rules[i] == CompileRule(j, d).value;
      var ops := j.fields["operations"].items;
      assert forall k :: 0 <= k < |c.rules[i].ops| ==> c.rules[i].ops[k] == CompileOpIn(d, ops[k]).value;
    }
  }

  function RenderRule(r: Rule): Json {
    JObject(map["filter" := RenderFilter(r.filter),
                "operations" := JArray(seq(|r.ops|, k requires 0 <= k < |r.ops| => RenderOp(r.ops[k])))])
  }

  function RenderSource(s: Source): Json {
    JObject(map["url" := JString(s.url), "private" := JBool(s.isPrivate)])
  }

  /** The configuration JSON of a descriptor. */
  function RenderCalendar(c: Calendar): Json {
    match c
    case Filtered(_, url, rules) =>
      JObject(map["type" := JString("filtered"), "url" := JString(url),
                  "rules" := JArray(seq(|rules|, i requires 0 <= i < |rules| => RenderRule(rules[i])))])
    case Merged(_, urls) =>
      JObject(map["type" := JString("merged"),
                  "urls" := JArray(seq(|urls|, i requires 0 <= i < |urls| => RenderSource(urls[i])))])
  }

  lemma RuleRoundTrip(r: Rule, d: Dialect)
    requires ExpressibleRule(r, d)
    ensures CompileRule(RenderRule(r), d) == Success(r)
  {
    FilterRoundTrip(r.filter);
    var items := seq(|r.ops|, k requires 0 <= k < |r.ops| => RenderOp(r.ops[k]));
    forall k | 0 <= k < |items|
      ensures CompileOpIn(d, items[k]) == Success(r.ops[k])
    {
      OpRoundTripIn(d, r.ops[k]);
    }
    assert CompileOps(d, items).value == r.ops;
  }

  /** Every descriptor the compiler can produce is what its own JSON
      compiles to: rules, operations and sources come back in order. */
  lemma CalendarRoundTrip(c: Calendar, urlOk: string -> bool, d: Dialect)
    requires Expressible(c, urlOk, d)
    ensures CompileCalendar(c.name, RenderCalendar(c), urlOk, d) == Success(c)
  {
    match c
    case Filtered(name, url, rules) =>
      var items := seq(|rules|, i requires 0 <= i < |rules| => RenderRule(rules[i]));
      forall i | 0 <= i < |items|
        ensures CompileRule(items[i], d) == Success(rules[i])
      {
        RuleRoundTrip(rules[i], d);
      }
      assert CompileRules(items, d).value == rules;
    case Merged(name, urls) =>
      var items := seq(|urls|, i requires 0 <= i < |urls| => RenderSource(urls[i]));
      assert CompileSources(items).value == urls;
  }
}

=== FILE: conditions.dfy ===
/** Operands and the operator table of an `if` filter node
    (`parseIfOperand` and `allowedIfOperators`). Operand values are strings
    or absent (`undefined`); on such values JavaScript's loose and strict
    equality coincide, ordering is lexicographic, and every ordering against
    `undefined` is false (it converts to NaN). */
module Conditions {
  import opened Results
  import opened Jcal
  import opened Host

  const EventPrefix: string := "event."

  datatype Operand = Literal(text: string) | Field(key: string)

  predicate HasEventPrefix(s: string) {
    |EventPrefix| <= |s| && s[..|EventPrefix|] == EventPrefix
  }

  /** The operand a configured string denotes. */
  function ParseOperand(s: string): (o: Operand)
    ensures RenderOperand(o) == s
    ensures o.Literal? <==> !HasEventPrefix(s)
  {
    if HasEventPrefix(s) then
      assert s == EventPrefix + s[|EventPrefix|..];
      Field(s[|EventPrefix|..])
    else Literal(s)
  }

  /** The configuration string of an operand. */
  function RenderOperand(o: Operand): string {
    match o
    case Literal(t) => t
    case Field(k) => EventPrefix + k
  }

  /** The operands some configuration string denotes: a literal that looks
      like a field reference is not one of them. */
  predicate Expressible(o: Operand) {
    o.Literal? ==> !HasEventPrefix(o.text)
  }

  lemma OperandRoundTrip(o: Operand)
    requires Expressible(o)
    ensures ParseOperand(RenderOperand(o)) == o
  {
    if o.Field? {
      assert (EventPrefix + o.key)[..|EventPrefix|] == EventPrefix;
      assert (EventPrefix + o.key)[|EventPrefix|..] == o.key;
    }
  }

  /** An operand's value for the record: a literal ignores the record; a
      field reference yields the value of the first line with that name
      that has a value, or nothing. */
  function Resolve(o: Operand, rec: Record): (r: Option<string>)
    ensures o.Literal? ==> r == Some(o.text)
    ensures o.Field? ==> (r.Some? <==> exists j :: 0 <= j < |rec| && rec[j].name == o.key && HasValue(rec[j]))
    ensures o.Field? && r.Some? ==>
              exists j :: 0 <= j < |rec| && rec[j].name == o.key && HasValue(rec[j]) && rec[j].values[0] == r.value
                          && forall i :: 0 <= i < j ==> !(rec[i].name == o.key && HasValue(rec[i]))
  {
    match o
    case Literal(t) => Some(t)
    case Field(k) => FirstValue(rec, k)
  }

  datatype Operator = LooseEq | LooseNe | StrictEq | StrictNe | Gt | Ge | Lt | Le | Contains | Matches

  /** The operator's key in the table; all keys are lower case. */
  function Symbol(op: Operator): string {
    match op
    case LooseEq => "=="
    case LooseNe => "!="
    case StrictEq => "==="
    case StrictNe => "!=="
    case Gt => ">"
    case Ge => ">="
    case Lt => "<"
    case Le => "<="
    case Contains => "contains"
    case Matches => "regex"
  }

  function LowerChar(c: char): char {
    if 'A' <= c <= 'Z' then (c as int + 32) as char else c
  }

  /** `toLowerCase`, on ASCII letters. A non-ASCII character never lowers to
      a string of the operator table, so table lookups are unaffected. */
  function Lower(s: string): (r: string)
    ensures |r| == |s|
    ensures forall i :: 0 <= i < |s| ==> r[i] == LowerChar(s[i])
    ensures forall i :: 0 <= i < |s| ==> !('A' <= r[i] <= 'Z')
    ensures forall i :: 0 <= i < |s| && !('A' <= s[i] <= 'Z') ==> r[i] == s[i]
  {
    seq(|s|, i requires 0 <= i < |s| => LowerChar(s[i]))
  }

  /** Looks an operator up after lower-casing it. */
  function LookupOperator(s: string): (r: Option<Operator>)
    ensures r.Some? ==> Symbol(r.value) == Lower(s)
    ensures r.None? ==> forall op: Operator :: Symbol(op) != Lower(s)
  {
    var k := Lower(s);
    if k == "==" then Some(LooseEq)
    else if k == "!=" then Some(LooseNe)
    else if k == "===" then Some(StrictEq)
    else if k == "!==" then Some(StrictNe)
    else if k == ">" then Some(Gt)
    else if k == ">=" then Some(Ge)
    else if k == "<" then Some(Lt)
    else if k == "<=" then Some(Le)
    else if k == "contains" then Some(Contains)
    else if k == "regex" then Some(Matches)
    else None
  }

  lemma LowerSymbol(op: Operator)
    ensures Lower(Symbol(op)) == Symbol(op)
  {
  }

  /** Every operator is found under its own key, and under no other. */
  lemma LookupSymbol(op: Operator, s: string)
    ensures LookupOperator(Symbol(op)) == Some(op)
    ensures LookupOperator(s) == Some(op) <==> Lower(s) == Symbol(op)
  {
    LowerSymbol(op);
  }

  /** The table is matched case-insensitively: an operator key spelled with
      any of its letters in upper case (`"CONTAINS"`, `"Regex"`) finds the
      same operator. */
  lemma OperatorCaseInsensitive(op: Operator, s: string)
    requires |s| == |Symbol(op)|
    requires forall i :: 0 <= i < |s| ==>
               s[i] == Symbol(op)[i] || ('a' <= Symbol(op)[i] <= 'z' && s[i] as int + 32 == Symbol(op)[i] as int)
    ensures LookupOperator(s) == Some(op)
  {
    LowerSymbol(op);
    assert Lower(s) == Symbol(op);
    LookupSymbol(op, s);
  }

  /** JavaScript's `<` on two strings: lexicographic on characters. */
  predicate Less(a: string, b: string)
    decreases |a|
    ensures Less(a, b) ==> a != b
    ensures |a| < |b| && a == b[..|a|] ==> Less(a, b)
    ensures |a| > 0 && |b| > 0 && a[0] < b[0] ==> Less(a, b)
  {
    if |a| == 0 then |b| > 0
    else if |b| == 0 then false
    else if a[0] != b[0] then a[0] < b[0]
    else Less(a[1..], b[1..])
  }

  lemma {:induction false} LessIrreflexive(a: string)
    ensures !Less(a, a)
  {
    if |a| > 0 {
      LessIrreflexive(a[1..]);
    }
  }

  /** `Less` is a strict total order: of two different strings exactly one
      is less than the other. */
  lemma {:induction false} LessTrichotomy(a: string, b: string)
    ensures a == b || Less(a, b) || Less(b, a)
    ensures !(Less(a, b) && Less(b, a))
  {
    if |a| > 0 && |b| > 0 && a[0] == b[0] {
      LessTrichotomy(a[1..], b[1..]);
      if a[1..] == b[1..] {
        assert a == [a[0]] + a[1..] && b == [b[0]] + b[1..];
      }
    }
  }

  lemma {:induction false} LessTransitive(a: string, b: string, c: string)
    requires Less(a, b) && Less(b, c)
    ensures Less(a, c)
  {
    if |a| > 0 && |b| > 0 && |c| > 0 && a[0] == b[0] && b[0] == c[0] {
      LessTransitive(a[1..], b[1..], c[1..]);
    }
  }

  predicate OccursAt(hay: string, needle: string, i: int) {
    0 <= i && i + |needle| <= |hay| && hay[i..i + |needle|] == needle
  }

  /** `hay.indexOf(needle, from)`: the first position at or after `from`
      where `needle` occurs, or -1. */
  function IndexOf(hay: string, needle: string, from: nat): (r: int)
    requires from <= |hay|
    decreases |hay| + 1 - from
    ensures r == -1 || (from <= r && OccursAt(hay, needle, r))
    ensures r == -1 <==> forall i :: from <= i ==> !OccursAt(hay, needle, i)
    ensures r != -1 ==> forall i :: from <= i < r ==> !OccursAt(hay, needle, i)
  {
    if from + |needle| > |hay| then -1
    else if hay[from..from + |needle|] == needle then from
    else IndexOf(hay, needle, from + 1)
  }

  /** The table entry for `op` on the two resolved operands. `contains`
      throws on an absent left operand and looks for the text "undefined"
      when the right one is absent; `regex` compiles the right operand (the
      empty pattern when absent) and tests the left one ("undefined" when
      absent). */
  function Compare(op: Operator, l: Option<string>, r: Option<string>, re: RegexEngine): (res: Result<bool, Fault>)
    ensures res.Failure? <==> (op == Contains && l.None?) || (op == Matches && !re.compiles(r.GetOr("")))
    ensures res.Failure? ==> res.error == (if op == Contains then UndefinedAccess else BadPattern)
    ensures op in {Gt, Ge, Lt, Le} && (l.None? || r.None?) ==> res == Success(false)
    ensures l.Some? && r.Some? ==>
              && (op == Lt ==> res == Success(Less(l.value, r.value)))
              && (op == Gt ==> res == Success(Less(r.value, l.value)))
    ensures op == Contains && l.Some? ==> res == Success(exists i :: OccursAt(l.value, r.GetOr("undefined"), i))
    ensures op == Matches && res.Success? ==> res.value == re.test(r.GetOr(""), l.GetOr("undefined"))
  {
    match op
    case LooseEq => Success(l == r)
    case LooseNe => Success(l != r)
    case StrictEq => Success(l == r)
    case StrictNe => Success(l != r)
    case Gt => Success(l.Some? && r.Some? && Less(r.value, l.value))
    case Ge => Success(l.Some? && r.Some? && !Less(l.value, r.value))
    case Lt => Success(l.Some? && r.Some? && Less(l.value, r.value))
    case Le => Success(l.Some? && r.Some? && !Less(r.value, l.value))
    case Contains =>
      if l.None? then Failure(UndefinedAccess)
      else Success(IndexOf(l.value, r.GetOr("undefined"), 0) != -1)
    case Matches =>
      var pattern := r.GetOr("");
      if !re.compiles(pattern) then Failure(BadPattern)
      else Success(re.test(pattern, l.GetOr("undefined")))
  }

  /** Loose and strict operators agree on strings and `undefined`, and each
      inequality is the negation of its equality. */
  lemma EqualityOperators(l: Option<string>, r: Option<string>, re: RegexEngine)
    ensures Compare(LooseEq, l, r, re) == Compare(StrictEq, l, r, re) == Success(l == r)
    ensures Compare(LooseNe, l, r, re) == Compare(StrictNe, l, r, re) == Success(!(l == r))
  {
  }

  /** On two present values `>=` is `>` or equal and `<=` is `<` or equal;
      against an absent value every ordering is false. */
  lemma OrderingOperators(l: Option<string>, r: Option<string>, re: RegexEngine)
    ensures Compare(Ge, l, r, re) == Success(l.Some? && r.Some? && (Compare(Gt, l, r, re).value || l == r))
    ensures Compare(Le, l, r, re) == Success(l.Some? && r.Some? && (Compare(Lt, l, r, re).value || l == r))
    ensures Compare(Lt, l, r, re) == Compare(Gt, r, l, re)
    ensures l.Some? && r.Some? ==> Compare(Lt, l, r, re) == Success(Less(l.value, r.value))
    ensures l.Some? && r.Some? && |l.value| < |r.value| && l.value == r.value[..|l.value|] ==>
              Compare(Lt, l, r, re) == Success(true) && Compare(Gt, l, r, re) == Success(false)
    ensures l.None? || r.None? ==>
              && Compare(Gt, l, r, re) == Success(false) && Compare(Lt, l, r, re) == Success(false)
              && Compare(Ge, l, r, re) == Success(false) && Compare(Le, l, r, re) == Success(false)
  {
    if l.Some? && r.Some? {
      LessTrichotomy(l.value, r.value);
      LessIrreflexive(l.value);
    }
  }

  /** `contains` holds exactly when the right value occurs in the left one;
      the empty string occurs in every string. */
  lemma ContainsMeansSubstring(l: string, r: string, re: RegexEngine)
    ensures Compare(Contains, Some(l), Some(r), re) == Success(exists i :: OccursAt(l, r, i))
    ensures Compare(Contains, Some(l), Some(""), re) == Success(true)
  {
    assert OccursAt(l, "", 0);
  }
}

=== FILE: filters.dfy ===
/** The boolean filter tree of a rule (`parseFilter`): its compiled form, how
    a compiled filter is evaluated against an event record, and the
    compiler from configuration JSON. */
module Filters {
  import opened Results
  import opened Json
  import opened Jcal
  import opened Host
  import opened Conditions

  /** A compiled filter. `Absent` is what an object without a `key` field
      compiles to: no predicate at all, which throws once it is called. */
  datatype Filter =
    | If(left: Operand, op: Operator, right: Operand, negate: bool)
    | And(lhs: Filter, rhs: Filter)
    | Or(lhs: Filter, rhs: Filter)
    | Absent

  /** Applies a compiled filter to the record's current lines. `and` and
      `or` do not evaluate their right child once the left one decides. */
  function Eval(f: Filter, rec: Record, re: RegexEngine): (r: Result<bool, Fault>)
    ensures r.Failure? ==> MayThrow(f)
  {
    match f
    case Absent => Failure(UndefinedAccess)
    case If(l, op, r, negate) =>
      var v :- Compare(op, Resolve(l, rec), Resolve(r, rec), re);
      Success(if negate then !v else v)
    case And(a, b) =>
      var x :- Eval(a, rec, re);
      if !x then Success(false) else Eval(b, rec, re)
    case Or(a, b) =>
      var x :- Eval(a, rec, re);
      if x then Success(true) else Eval(b, rec, re)
  }

  /** Whether evaluating the filter can throw: only a missing predicate,
      `contains` (on an absent left value) and `regex` (on a bad pattern)
      ever do. */
  predicate MayThrow(f: Filter) {
    match f
    case Absent => true
    case If(_, op, _, _) => op == Contains || op == Matches
    case And(a, b) => MayThrow(a) || MayThrow(b)
    case Or(a, b) => MayThrow(a) || MayThrow(b)
  }

  /** The field names a filter reads from a record. */
  function Reads(f: Filter): set<string> {
    match f
    case If(l, _, r, _) =>
      (if l.Field? then {l.key} else {}) + (if r.Field? then {r.key} else {})
    case And(a, b) => Reads(a) + Reads(b)
    case Or(a, b) => Reads(a) + Reads(b)
    case Absent => {}
  }

  /** Compiles an `if` node whose fields are `fields`. */
  function CompileIf(fields: map<string, Json>): (r: Result<Filter, ConfigError>)
    ensures r.Success? <==>
              && "left" in fields && "operator" in fields && "right" in fields
              && fields["left"].JString? && fields["operator"].JString? && fields["right"].JString?
              && LookupOperator(fields["operator"].s).Some?
    ensures r.Success? ==> r.value.If?
    ensures r.Success? ==>
              && Expressible(r.value.left) && Expressible(r.value.right)
              && RenderOperand(r.value.left) == fields["left"].s
              && RenderOperand(r.value.right) == fields["right"].s
              && Symbol(r.value.op) == Lower(fields["operator"].s)
              && (r.value.negate <==> "negate" in fields && Truthy(fields["negate"]))
  {
    if !("left" in fields && "operator" in fields && "right" in fields) then Failure(InvalidFilter)
    else if !fields["operator"].JString? then Failure(TypeError)
    else if !fields["left"].JString? || !fields["right"].JString? then Failure(InvalidFilter)
    else
      match LookupOperator(fields["operator"].s)
      case None => Failure(InvalidOperator)
      case Some(op) =>
        var negate := "negate" in fields && Truthy(fields["negate"]);
        Success(If(ParseOperand(fields["left"].s), op, ParseOperand(fields["right"].s), negate))
  }

  /** The filters a configuration can denote: every literal operand is one
      that does not look like a field reference. */
  predicate ExpressibleFilter(f: Filter) {
    match f
    case If(l, _, r, _) => Expressible(l) && Expressible(r)
    case And(a, b) => ExpressibleFilter(a) && ExpressibleFilter(b)
    case Or(a, b) => ExpressibleFilter(a) && ExpressibleFilter(b)
    case Absent => true
  }

  /** Compiles a filter tree. A value of another `typeof` than 'object' is
      rejected, `null` throws on its property lookup, and an array or an
      object without `key` compiles to `Absent`. */
  function CompileFilter(j: Json): (r: Result<Filter, ConfigError>)
    decreases j
    ensures r.Success? ==> ExpressibleFilter(r.value)
    ensures r.Success? && r.value.Absent? <==> j.JArray? || (j.JObject? && "key" !in j.fields)
    ensures !IsObjectLike(j) ==> r.Failure?
    ensures r.Success? && !r.value.Absent? ==>
              j.JObject? && "key" in j.fields && j.fields["key"] in {JString("if"), JString("and"), JString("or")}
    ensures j.JObject? && "key" in j.fields && j.fields["key"] == JString("if") ==> r == CompileIf(j.fields)
    ensures j.JObject? && "key" in j.fields && j.fields["key"] in {JString("and"), JString("or")} ==>
              && (r.Success? <==>
                    && "left" in j.fields && "right" in j.fields
                    && CompileFilter(j.fields["left"]).Success? && CompileFilter(j.fields["right"]).Success?)
              && (!("left" in j.fields && "right" in j.fields) ==> r == Failure(InvalidFilter))
              && (r.Success? ==>
                    && (r.value.And? || r.value.Or?)
                    && (r.value.And? <==> j.fields["key"] == JString("and"))
                    && r.value.lhs == CompileFilter(j.fields["left"]).value
                    && r.value.rhs == CompileFilter(j.fields["right"]).value)
    ensures j.JObject? && "key" in j.fields && j.fields["key"] !in {JString("if"), JString("and"), JString("or")} ==>
              r == Failure(InvalidFilterKey)
  {
    if !IsObjectLike(j) then Failure(InvalidFilter)
    else if j.JNull? then Failure(TypeError)
    else if !(j.JObject? && "key" in j.fields) then Success(Absent)
    else
      var key := j.fields["key"];
      if key == JString("if") then CompileIf(j.fields)
      else if key == JString("and") || key == JString("or") then
        if !("left" in j.fields && "right" in j.fields) then Failure(InvalidFilter)
        else
          var a :- CompileFilter(j.fields["left"]);
          var b :- CompileFilter(j.fields["right"]);
          Success(if key == JString("and") then And(a, b) else Or(a, b))
      else Failure(InvalidFilterKey)
  }

  /** The configuration JSON of a compiled filter. */
  function RenderFilter(f: Filter): Json {
    match f
    case If(l, op, r, negate) =>
      JObject(map["key" := JString("if"), "left" := JString(RenderOperand(l)),
                  "operator" := JString(Symbol(op)), "right" := JString(RenderOperand(r)),
                  "negate" := JBool(negate)])
    case And(a, b) =>
      JObject(map["key" := JString("and"), "left" := RenderFilter(a), "right" := RenderFilter(b)])
    case Or(a, b) =>
      JObject(map["key" := JString("or"), "left" := RenderFilter(a), "right" := RenderFilter(b)])
    case Absent => JObject(map[])
  }

  /** Every expressible filter is what its own JSON compiles to. */
  lemma {:induction false} FilterRoundTrip(f: Filter)
    requires ExpressibleFilter(f)
    ensures CompileFilter(RenderFilter(f)) == Success(f)
  {
    match f
    case If(l, op, r, negate) =>
      OperandRoundTrip(l);
      OperandRoundTrip(r);
      LookupSymbol(op, Symbol(op));
    case And(a, b) =>
      FilterRoundTrip(a);
      FilterRoundTrip(b);
    case Or(a, b) =>
      FilterRoundTrip(a);
      FilterRoundTrip(b);
    case Absent =>
  }

  /** An `if` node whose operator is not in the table, in any case, is
      rejected when the filter is compiled, never when it is evaluated. */
  lemma UnknownOperatorRejected(fields: map<string, Json>)
    requires "key" in fields && fields["key"] == JString("if")
    requires "left" in fields && "operator" in fields && "right" in fields
    requires fields["left"].JString? && fields["operator"].JString? && fields["right"].JString?
    ensures (CompileFilter(JObject(fields)) == Failure(InvalidOperator)) <==>
              (forall op: Operator :: Symbol(op) != Lower(fields["operator"].s))
  {
  }

  /** `and` with a false left child is false, and `or` with a true left
      child is true, whatever the right child is, even one that throws. */
  lemma ShortCircuit(a: Filter, rec: Record, re: RegexEngine)
    ensures Eval(a, rec, re) == Success(false) ==> forall b :: Eval(And(a, b), rec, re) == Success(false)
    ensures Eval(a, rec, re) == Success(true) ==> forall b :: Eval(Or(a, b), rec, re) == Success(true)
    ensures Eval(a, rec, re).Failure? ==> forall b :: Eval(And(a, b), rec, re) == Eval(a, rec, re) == Eval(Or(a, b), rec, re)
  {
  }

  /** The configuration of an `if` node without `negate`. */
  function IfNode(left: string, operator: string, right: string): Json {
    JObject(map["key" := JString("if"), "left" := JString(left), "operator" := JString(operator),
                "right" := JString(right)])
  }

  /** A missing predicate throws once it is called. */
  lemma AbsentThrows(rec: Record, re: RegexEngine)
    ensures CompileFilter(JObject(map[])) == Success(Absent)
    ensures Eval(Absent, rec, re) == Failure(UndefinedAccess)
  {
  }

  /** `event.<k> == t` holds of a record exactly when the first valued line
      called `k` holds `t`. */
  lemma IfFieldEquals(k: string, t: string, rec: Record, re: RegexEngine)
    requires !HasEventPrefix(t)
    ensures CompileFilter(IfNode(EventPrefix + k, "==", t)).Success?
    ensures Eval(CompileFilter(IfNode(EventPrefix + k, "==", t)).value, rec, re) == Success(FirstValue(rec, k) == Some(t))
  {
    CompileFieldNode(k, LooseEq, t);
  }

  /** `event.<k> contains t`, as `CompileFieldNode` compiles it, throws when
      `k` has no value and otherwise holds exactly when `t` occurs in that
      value. */
  lemma IfFieldContains(k: string, t: string, rec: Record, re: RegexEngine)
    ensures var v := Eval(If(Field(k), Contains, Literal(t), false), rec, re);
            && (FirstValue(rec, k).None? ==> v == Failure(UndefinedAccess))
            && (FirstValue(rec, k).Some? ==> v == Success(exists i :: OccursAt(FirstValue(rec, k).value, t, i)))
  {
    EvalFieldNode(k, Contains, t, rec, re);
    var fv := FirstValue(rec, k);
    if fv.Some? {
      ContainsMeansSubstring(fv.value, t, re);
    }
  }

  /** `event.<k> < t` holds exactly when `k` has a value that comes before
      `t`; so a value that is a proper prefix of `t` is less. */
  lemma IfFieldBefore(k: string, t: string, rec: Record, re: RegexEngine)
    requires !HasEventPrefix(t)
    ensures CompileFilter(IfNode(EventPrefix + k, "<", t)).Success?
    ensures Eval(CompileFilter(IfNode(EventPrefix + k, "<", t)).value, rec, re)
            == Success(FirstValue(rec, k).Some? && Less(FirstValue(rec, k).value, t))
  {
    CompileFieldNode(k, Lt, t);
    EvalFieldNode(k, Lt, t, rec, re);
  }

  /** That comparison applies the operator to the field's value and `t`. */
  lemma EvalFieldNode(k: string, op: Operator, t: string, rec: Record, re: RegexEngine)
    ensures Eval(If(Field(k), op, Literal(t), false), rec, re) == Compare(op, FirstValue(rec, k), Some(t), re)
  {
    assert Resolve(Field(k), rec) == FirstValue(rec, k);
  }

  /** The `if` node comparing field `k` with the literal `t` compiles to
      exactly that comparison. */
  lemma CompileFieldNode(k: string, op: Operator, t: string)
    requires !HasEventPrefix(t)
    ensures CompileFilter(IfNode(EventPrefix + k, Symbol(op), t)) == Success(If(Field(k), op, Literal(t), false))
  {
    OperandRoundTrip(Field(k));
    LookupSymbol(op, Symbol(op));
    var fields := IfNode(EventPrefix + k, Symbol(op), t).fields;
    assert "negate" !in fields;
    assert CompileFilter(IfNode(EventPrefix + k, Symbol(op), t)) == CompileIf(fields);
  }

  /** `and` holds exactly when both children hold and `or` exactly when one
      does, whenever the node's evaluation does not throw. */
  lemma Connectives(a: Filter, b: Filter, rec: Record, re: RegexEngine)
    ensures Eval(And(a, b), rec, re).Success? ==>
              (Eval(And(a, b), rec, re).value <==> Eval(a, rec, re) == Success(true) && Eval(b, rec, re) == Success(true))
    ensures Eval(Or(a, b), rec, re).Success? ==>
              (Eval(Or(a, b), rec, re).value <==> Eval(a, rec, re) == Success(true) || Eval(b, rec, re) == Success(true))
  {
  }

  /** A set `negate` flag inverts the operator's answer and nothing else;
      in particular negated `==` is `!=`. */
  lemma Negation(l: Operand, op: Operator, r: Operand, rec: Record, re: RegexEngine)
    ensures Eval(If(l, op, r, true), rec, re).Success? == Eval(If(l, op, r, false), rec, re).Success?
    ensures Eval(If(l, op, r, false), rec, re).Success? ==>
              Eval(If(l, op, r, true), rec, re).value == !Eval(If(l, op, r, false), rec, re).value
    ensures Eval(If(l, LooseEq, r, true), rec, re) == Eval(If(l, LooseNe, r, false), rec, re)
    ensures Eval(If(l, StrictEq, r, true), rec, re) == Eval(If(l, StrictNe, r, false), rec, re)
  {
  }

  /** A filter's answer depends only on the values of the fields it reads. */
  lemma {:induction false} EvalFrame(f: Filter, rec1: Record, rec2: Record, re: RegexEngine)
    requires forall k :: k in Reads(f) ==> FirstValue(rec1, k) == FirstValue(rec2, k)
    ensures Eval(f, rec1, re) == Eval(f, rec2, re)
  {
    match f
    case If(l, op, r, negate) =>
      assert Resolve(l, rec1) == Resolve(l, rec2);
      assert Resolve(r, rec1) == Resolve(r, rec2);
    case And(a, b) =>
      EvalFrame(a, rec1, rec2, re);
      EvalFrame(b, rec1, rec2, re);
    case Or(a, b) =>
      EvalFrame(a, rec1, rec2, re);
      EvalFrame(b, rec1, rec2, re);
    case Absent =>
  }
}

=== FILE: handlers.dfy ===
/** The three HTTP handlers around the rule loops: the calendar request
    handler, the filtered-calendar updater and the calendar merger. Fetching
    is a parameter: `fetch(url)` is None when the request fails, otherwise
    the upstream status and its body parsed as jCal. Every handler answers
    with exactly one response. */
module Handlers {
  import opened Results
  import opened Jcal
  import opened Host
  import opened Calendars
  import opened Pipeline
  import RequestLoop
  import UpdateLoop
  import Merge

  /** An upstream answer: its HTTP status and its parsed body. */
  datatype Upstream = Upstream(status: int, doc: Component)

  /** An error passed on to the framework's error handler. */
  datatype HandedError =
    | FetchError
      /** Reading a variable that was never declared. */
    | ReferenceError

  datatype Response =
    | NotFound
      /** A 500 naming the upstream status that was not 200. */
    | BadUpstream(status: int)
      /** A `text/calendar` answer holding the serialised document. */
    | Served(doc: Component)
    | HandedOff(error: HandedError)
      /** An exception escaping the handler: nothing is answered. */
    | Rejected(fault: Fault)

  /** What a filtered calendar answers once its upstream was fetched. */
  function Respond(up: Option<Upstream>, rules: seq<Rule>, re: RegexEngine): (r: Response)
    ensures !r.NotFound?
    ensures r == HandedOff(FetchError) <==> up.None?
    ensures r.BadUpstream? <==> up.Some? && up.value.status != 200
    ensures r.BadUpstream? ==> r.status == up.value.status
    ensures r.Served? ==>
              && up.Some? && up.value.status == 200
              && r.doc.name == up.value.doc.name && r.doc.props == up.value.doc.props
              && Select(r.doc.subs, false) == Select(up.value.doc.subs, false)
  {
    match up
    case None => HandedOff(FetchError)
    case Some(u) =>
      if u.status != 200 then BadUpstream(u.status)
      else
        match FilterDocument(rules, u.doc, re)
        case Success(d) =>
          NonEventsPassThrough(rules, u.doc.subs, [], re);
          assert [] + Select(u.doc.subs, false) == Select(u.doc.subs, false);
          Served(d)
        case Failure(f) => Rejected(f)
  }

  /** `GET /<name>.ics`. The loaded map holds filtered calendars only,
      since the loader refuses any other. */
  method ServeCalendar(calendars: map<string, Calendar>, name: string, fetch: string -> Option<Upstream>, re: RegexEngine)
    returns (r: Response)
    requires forall n :: n in calendars ==> calendars[n].Filtered?
    ensures r == NotFound <==> name !in calendars
    ensures name in calendars ==> r == Respond(fetch(calendars[name].url), calendars[name].rules, re)
  {
    if name !in calendars {
      return NotFound;
    }
    var conf := calendars[name];
    var up := fetch(conf.url);
    if up.None? {
      return HandedOff(FetchError);
    }
    if up.value.status != 200 {
      return BadUpstream(up.value.status);
    }
    var ical := up.value.doc;
    var newEvents := RequestLoop.FilterEntries(conf.rules, ical.subs, re);
    if newEvents.Failure? {
      return Rejected(newEvents.error);
    }
    r := Served(ical.(subs := newEvents.value));
  }

  /** The updater as written: the URL is read from a misspelt, undeclared
      name, whose ReferenceError the fetch's error handling catches, so the
      handler never gets as far as fetching. */
  function UpdateAsWritten(url: string, rules: seq<Rule>, fetch: string -> Option<Upstream>, re: RegexEngine): (r: Response)
    ensures !r.Served? && !r.Rejected?
  {
    HandedOff(ReferenceError)
  }

  /** The updater with the URL read from its own descriptor. */
  method UpdateFilteredCalendar(url: string, rules: seq<Rule>, fetch: string -> Option<Upstream>, re: RegexEngine)
    returns (r: Response)
    ensures r == Respond(fetch(url), rules, re)
    ensures r.Served? ==> exists u :: fetch(url) == Some(u) && u.status == 200 && FilterDocument(rules, u.doc, re) == Success(r.doc)
  {
    var up := fetch(url);
    if up.None? {
      return HandedOff(FetchError);
    }
    if up.value.status != 200 {
      return BadUpstream(up.value.status);
    }
    var ical := up.value.doc;
    var newEvents := UpdateLoop.UpdateEntries(rules, ical.subs, re);
    if newEvents.Failure? {
      return Rejected(newEvents.error);
    }
    r := Served(ical.(subs := newEvents.value));
  }

  /** An upstream that answers every URL with an empty calendar. */
  function EmptyUpstream(url: string): Option<Upstream> {
    Some(Upstream(200, Component("vcalendar", [], [])))
  }

  /** A regular-expression engine in which nothing matches. */
  const Inert := RegexEngine(_ => true, (_, _) => false, (_, s, _) => s)

  /** The misspelling in action: with an upstream that answers, the updater
      as written hands an error on where the corrected one serves the
      calendar. */
  lemma UpdateTypoWitness()
    ensures Respond(EmptyUpstream("https://example.org/a.ics"), [], Inert) == Served(Component("vcalendar", [], []))
    ensures UpdateAsWritten("https://example.org/a.ics", [], EmptyUpstream, Inert) == HandedOff(ReferenceError)
  {
    assert ApplyRules([], [], [], Inert) == Success([]);
  }

  /** Fetches the sources in order; the first failed or non-200 fetch
      decides the response. */
  function FetchAll(urls: seq<Source>, fetch: string -> Option<Upstream>): (r: Result<seq<Component>, Response>)
    ensures r.Success? ==> |r.value| == |urls|
    ensures r.Success? <==> forall i :: 0 <= i < |urls| ==> fetch(urls[i].url).Some? && fetch(urls[i].url).value.status == 200
    ensures r.Success? ==> forall i :: 0 <= i < |urls| ==> fetch(urls[i].url) == Some(Upstream(200, r.value[i]))
  {
    if |urls| == 0 then Success([])
    else
      var up := fetch(urls[0].url);
      if up.None? then Failure(HandedOff(FetchError))
      else if up.value.status != 200 then Failure(BadUpstream(up.value.status))
      else
        var rest :- FetchAll(urls[1..], fetch);
        assert forall i :: 1 <= i < |urls| ==> urls[i] == urls[1..][i - 1];
        Success([up.value.doc] + rest)
  }

  /** The merged calendar's handler. A merged descriptor always has a
      source, so the merged document is always served once every fetch
      succeeds. */
  method MergeCalendars(urls: seq<Source>, fetch: string -> Option<Upstream>) returns (r: Response)
    ensures FetchAll(urls, fetch).Failure? ==> r == FetchAll(urls, fetch).error
    ensures FetchAll(urls, fetch).Success? && |urls| == 0 ==> r == Rejected(UndefinedAccess)
    ensures FetchAll(urls, fetch).Success? && |urls| > 0 ==>
              var docs := FetchAll(urls, fetch).value;
              r == Served(docs[0].(subs := Merge.Contributions(urls, docs)))
  {
    var docs: seq<Component> := [];
    var i := 0;
    while i < |urls|
      invariant 0 <= i <= |urls| && |docs| == i
      invariant forall k :: 0 <= k < i ==> fetch(urls[k].url) == Some(Upstream(200, docs[k]))
    {
      var up := fetch(urls[i].url);
      if up.None? {
        FetchAllStops(urls, fetch, i);
        return HandedOff(FetchError);
      }
      if up.value.status != 200 {
        FetchAllStops(urls, fetch, i);
        return BadUpstream(up.value.status);
      }
      docs := docs + [up.value.doc];
      i := i + 1;
    }
    assert FetchAll(urls, fetch).value == docs;
    var merged := Merge.MergeDocuments(urls, docs);
    if merged.Failure? {
      return Rejected(merged.error);
    }
    r := Served(merged.value);
  }

  /** When the fetches before `i` succeed and the one at `i` does not, the
      fetch at `i` decides the response. */
  lemma {:induction false} FetchAllStops(urls: seq<Source>, fetch: string -> Option<Upstream>, i: nat)
    requires i < |urls|
    requires forall k :: 0 <= k < i ==> fetch(urls[k].url).Some? && fetch(urls[k].url).value.status == 200
    requires fetch(urls[i].url).None? || fetch(urls[i].url).value.status != 200
    ensures FetchAll(urls, fetch) == Failure(
              if fetch(urls[i].url).None? then HandedOff(FetchError) else BadUpstream(fetch(urls[i].url).value.status))
  {
    if i > 0 {
      FetchAllStops(urls[1..], fetch, i - 1);
    }
  }
}

=== FILE: host.dfy ===
/** The JavaScript regular-expression engine, which the model does not
    define: the rule engine receives it as a value. */
module Host {

  datatype RegexEngine = RegexEngine(
    /** `new RegExp(pattern)` does not throw. */
    compiles: string -> bool,
    /** `new RegExp(pattern).test(subject)`. */
    test: (string, string) -> bool,
    /** `subject.replace(new RegExp(pattern), replacement)`: the first match
        replaced, with `$1`-style references expanded. */
    replace: (string, string, string) -> string)
}

=== FILE: jcal.dfy ===
/** The jCal shapes of RFC 7265 that the proxy walks: a component is
    `[name, properties, subcomponents]` and a property is
    `[name, params, type, value, ...]`. */
module Jcal {
  import opened Results
  import opened Json

  /** One property line. `values` holds the elements from index 3 on, so a
      line with an empty `values` is three elements long and has no value.
      Values are restricted to strings. */
  datatype Line = Line(name: string, params: Json, valueType: string, values: seq<string>)

  /** An event record: the property lines of one component, in order. */
  type Record = seq<Line>

  datatype Component = Component(name: string, props: Record, subs: seq<Component>)

  /** `dataLine.length >= 4`. */
  predicate HasValue(l: Line) {
    |l.values| >= 1
  }

  predicate IsEvent(c: Component) {
    c.name == "vevent"
  }

  /** Index of the first line called `key`, whatever its length: the scan of
      the `edit` and `editRegex` transforms. */
  function FirstNamed(rec: Record, key: string): (r: Option<nat>)
    ensures r.Some? ==> r.value < |rec| && rec[r.value].name == key
    ensures r.Some? ==> forall j :: 0 <= j < r.value ==> rec[j].name != key
    ensures r.None? <==> forall j :: 0 <= j < |rec| ==> rec[j].name != key
  {
    if |rec| == 0 then None
    else if rec[0].name == key then Some(0)
    else
      match FirstNamed(rec[1..], key)
      case None => None
      case Some(i) => Some(i + 1)
  }

  /** Value of the first line called `key` that has a value: the scan of an
      `event.<key>` operand. */
  function FirstValue(rec: Record, key: string): (r: Option<string>)
    ensures r.Some? <==> exists j :: 0 <= j < |rec| && rec[j].name == key && HasValue(rec[j])
    ensures r.Some? ==> exists j :: 0 <= j < |rec| && rec[j].name == key && HasValue(rec[j])
                                 && rec[j].values[0] == r.value
                                 && forall i :: 0 <= i < j ==> !(rec[i].name == key && HasValue(rec[i]))
  {
    if |rec| == 0 then None
    else if rec[0].name == key && HasValue(rec[0]) then Some(rec[0].values[0])
    else
      var r := FirstValue(rec[1..], key);
      if r.Some? then
        var j :| 1 <= j + 1 < |rec| && rec[1..][j].name == key && HasValue(rec[1..][j])
               && rec[1..][j].values[0] == r.value
               && forall i :: 0 <= i < j ==> !(rec[1..][i].name == key && HasValue(rec[1..][i]));
        assert rec[j + 1] == rec[1..][j];
        assert forall i :: 1 <= i < j + 1 ==> rec[i] == rec[1..][i - 1];
        r
      else
        assert forall j :: 1 <= j < |rec| ==> rec[j] == rec[1..][j - 1];
        r
  }

  /** The entries of `s` that are events (`events`) or that are not. */
  function Select(s: seq<Component>, events: bool): (r: seq<Component>)
    ensures |r| <= |s|
    ensures forall c :: c in r ==> c in s && IsEvent(c) == events
  {
    if |s| == 0 then []
    else if IsEvent(s[0]) == events then [s[0]] + Select(s[1..], events)
    else Select(s[1..], events)
  }

  /** `n` copies of `c`. */
  function Repeat(c: Component, n: nat): (r: seq<Component>)
    ensures |r| == n
    ensures forall i :: 0 <= i < n ==> r[i] == c
  {
    if n == 0 then [] else [c] + Repeat(c, n - 1)
  }

  lemma {:induction false} SelectAppend(a: seq<Component>, b: seq<Component>, events: bool)
    ensures Select(a + b, events) == Select(a, events) + Select(b, events)
  {
    if |a| == 0 {
      assert a + b == b;
    } else {
      assert (a + b)[1..] == a[1..] + b;
      SelectAppend(a[1..], b, events);
    }
  }

  /** Selecting twice is selecting once; selecting the other kind afterwards
      leaves nothing. */
  lemma {:induction false} SelectSelect(s: seq<Component>, events: bool, again: bool)
    ensures Select(Select(s, events), again) == if events == again then Select(s, events) else []
  {
    if |s| > 0 {
      SelectSelect(s[1..], events, again);
    }
  }

  /** A sequence made only of entries of one kind selects to itself. */
  lemma {:induction false} SelectAll(s: seq<Component>, events: bool)
    requires forall i :: 0 <= i < |s| ==> IsEvent(s[i]) == events
    ensures Select(s, events) == s
    ensures Select(s, !events) == []
  {
    if |s| > 0 {
      SelectAll(s[1..], events);
    }
  }
}

=== FILE: json.dfy ===
/** The configuration as `JSON.parse` hands it over, and the few JavaScript
    observations the compiler makes of such values (`typeof`,
    `hasOwnProperty`, truthiness). */
module Json {
  import opened Results

  datatype Json =
    | JNull
    | JBool(b: bool)
    | JNumber(n: real)
    | JString(s: string)
    | JArray(items: seq<Json>)
      /** `JSON.parse` keeps the last of duplicated keys, so an object is a map. */
    | JObject(fields: map<string, Json>)

  /** `typeof v === 'object'`: objects, arrays and `null`. */
  predicate IsObjectLike(v: Json) {
    v.JObject? || v.JArray? || v.JNull?
  }

  /** `v.hasOwnProperty(k)`, or None when the call throws (`v` is `null`).
      Strings, numbers, booleans and arrays own none of the property names
      the compiler asks about (it never asks for `length` or an index). */
  function HasOwn(v: Json, k: string): (r: Option<bool>)
    ensures r.None? <==> v.JNull?
    ensures r == Some(true) <==> v.JObject? && k in v.fields
  {
    match v
    case JNull => None
    case JObject(fields) => Some(k in fields)
    case _ => Some(false)
  }

  /** JavaScript truthiness of a parsed JSON value: every value is truthy
      except the falsy ones JSON can spell, `null`, `false`, `0` and `""`. */
  predicate Truthy(v: Json)
    ensures Truthy(v) <==> v !in {JNull, JBool(false), JNumber(0.0), JString("")}
  {
    match v
    case JNull => false
    case JBool(b) => b
    case JNumber(n) => n != 0.0
    case JString(s) => s != ""
    case JArray(_) => true
    case JObject(_) => true
  }
}

=== FILE: loader.dfy ===
/** Loading the calendar map from the parsed configuration file, and the
    reload on a file change. A load is all-or-nothing: the first calendar
    that throws aborts it. After compiling a calendar the loader reads
    `.rules.length` of the descriptor, which throws for a merged calendar
    (it has no `rules`), so no configuration holding a merged calendar
    loads. */
module Loader {
  import opened Results
  import opened Json
  import opened Operations
  import opened Calendars

  /** One calendar that the loader gets past: it compiles to a filtered
      descriptor. */
  predicate Loads(name: string, cfg: Json, urlOk: string -> bool, d: Dialect) {
    CompileCalendar(name, cfg, urlOk, d).Success? && CompileCalendar(name, cfg, urlOk, d).value.Filtered?
  }

  /** The calendar map of a parsed configuration, or None when loading
      throws. The order in which names are visited is left open; it only
      decides which error is logged. */
  method LoadConfig(config: map<string, Json>, urlOk: string -> bool, d: Dialect) returns (r: Option<map<string, Calendar>>)
    ensures r.Some? <==> forall name :: name in config ==> Loads(name, config[name], urlOk, d)
    ensures r.Some? ==> r.value.Keys == config.Keys
    ensures r.Some? ==> forall name :: name in config ==>
              r.value[name] == CompileCalendar(name, config[name], urlOk, d).value && r.value[name].Filtered?
  {
    var calendars: map<string, Calendar> := map[];
    var pending := config.Keys;
    while pending != {}
      invariant pending <= config.Keys
      invariant calendars.Keys == config.Keys - pending
      invariant forall name :: name in calendars ==>
                  Loads(name, config[name], urlOk, d) && calendars[name] == CompileCalendar(name, config[name], urlOk, d).value
      decreases pending
    {
      var name :| name in pending;
      var c := CompileCalendar(name, config[name], urlOk, d);
      if c.Failure? {
        return None;
      }
      calendars := calendars[name := c.value];
      if !c.value.Filtered? {
        return None;
      }
      pending := pending - {name};
    }
    return Some(calendars);
  }

  /** The map in force after a configuration change: the freshly loaded map
      when loading succeeds, otherwise the current one, untouched. */
  method Reload(current: map<string, Calendar>, config: map<string, Json>, urlOk: string -> bool, d: Dialect) returns (next: map<string, Calendar>)
    ensures (exists name :: name in config && !Loads(name, config[name], urlOk, d)) ==> next == current
    ensures (forall name :: name in config ==> Loads(name, config[name], urlOk, d)) ==>
              next.Keys == config.Keys
              && forall name :: name in config ==> next[name] == CompileCalendar(name, config[name], urlOk, d).value
  {
    var loaded := LoadConfig(config, urlOk, d);
    if loaded.Some? {
      next := loaded.value;
    } else {
      next := current;
    }
  }

  /** A merged calendar anywhere in the configuration makes the load fail,
      even though it compiles. */
  lemma MergedBlocksLoad(config: map<string, Json>, name: string, urlOk: string -> bool, d: Dialect)
    requires name in config && config[name].JObject? && "type" in config[name].fields && config[name].fields["type"] == JString("merged")
    ensures !Loads(name, config[name], urlOk, d)
  {
  }
}

=== FILE: merge.dfy ===
/** The merged calendar: the fetched documents of the sources, in
    configuration order, become one document. The first document is the
    envelope; its entry list is replaced by the concatenation of every
    source's contribution. A public source contributes all its top-level
    entries; a private one only its events, which it passes on unchanged. */
module Merge {
  import opened Results
  import opened Jcal
  import opened Calendars

  /** The entries one fetched document adds to the merged list. */
  function Contribution(src: Source, doc: Component): (r: seq<Component>)
    ensures !src.isPrivate ==> r == doc.subs
    ensures src.isPrivate ==> forall c :: c in r ==> IsEvent(c) && c in doc.subs
  {
    if src.isPrivate then Select(doc.subs, true) else doc.subs
  }

  /** The contributions of all sources, in order. */
  function Contributions(urls: seq<Source>, docs: seq<Component>): (r: seq<Component>)
    requires |urls| == |docs|
    ensures forall c :: c in r ==> exists i :: 0 <= i < |docs| && c in docs[i].subs
    ensures forall c :: c in r && !IsEvent(c) ==> exists i :: 0 <= i < |docs| && !urls[i].isPrivate && c in docs[i].subs
  {
    if |urls| == 0 then []
    else Contributions(urls[..|urls| - 1], docs[..|docs| - 1]) + Contribution(urls[|urls| - 1], docs[|docs| - 1])
  }

  /** The entries a private source passes on: its events, in order. */
  method PrivateEvents(subs: seq<Component>) returns (kept: seq<Component>)
    ensures kept == Select(subs, true)
  {
    kept := [];
    var k := 0;
    while k < |subs|
      invariant 0 <= k <= |subs|
      invariant kept == Select(subs[..k], true)
    {
      var event := subs[k];
      assert subs[..k + 1] == subs[..k] + [event];
      SelectAppend(subs[..k], [event], true);
      if IsEvent(event) {
        kept := kept + [event];
      }
      k := k + 1;
    }
    assert subs[..k] == subs;
  }

  /** Builds the merged document from `docs`, the documents fetched for
      `urls`, one per source. With no source there is no envelope and the
      entry list assignment throws. */
  method MergeDocuments(urls: seq<Source>, docs: seq<Component>) returns (r: Result<Component, Fault>)
    requires |docs| == |urls|
    ensures r.Success? <==> |urls| > 0
    ensures r.Failure? ==> r.error == UndefinedAccess
    ensures r.Success? ==> r.value == docs[0].(subs := Contributions(urls, docs))
  {
    var ics: Option<Component> := None;
    var events: seq<Component> := [];
    var i := 0;
    while i < |urls|
      invariant 0 <= i <= |urls|
      invariant ics == if i == 0 then None else Some(docs[0])
      invariant events == Contributions(urls[..i], docs[..i])
    {
      var ical := docs[i];
      if ics.None? {
        ics := Some(ical);
      }
      assert urls[..i + 1][..i] == urls[..i] && docs[..i + 1][..i] == docs[..i];
      if urls[i].isPrivate {
        var kept := PrivateEvents(ical.subs);
        events := events + kept;
      } else {
        events := events + ical.subs;
      }
      i := i + 1;
    }
    assert urls[..i] == urls && docs[..i] == docs;
    if ics.None? {
      r := Failure(UndefinedAccess);
    } else {
      r := Success(ics.value.(subs := events));
    }
  }

  /** The events of every source, public or private, in source order. */
  function AllEvents(docs: seq<Component>): seq<Component> {
    if |docs| == 0 then [] else AllEvents(docs[..|docs| - 1]) + Select(docs[|docs| - 1].subs, true)
  }

  /** The non-event entries of the public sources, in source order. */
  function PublicOthers(urls: seq<Source>, docs: seq<Component>): seq<Component>
    requires |urls| == |docs|
  {
    if |urls| == 0 then []
    else
      PublicOthers(urls[..|urls| - 1], docs[..|docs| - 1])
      + (if urls[|urls| - 1].isPrivate then [] else Select(docs[|docs| - 1].subs, false))
  }

  /** Every event of every source reaches the merged list, in order; of the
      other entries exactly those of public sources do. */
  lemma {:induction false} MergedSplit(urls: seq<Source>, docs: seq<Component>)
    requires |urls| == |docs|
    ensures Select(Contributions(urls, docs), true) == AllEvents(docs)
    ensures Select(Contributions(urls, docs), false) == PublicOthers(urls, docs)
  {
    if |urls| > 0 {
      var n := |urls| - 1;
      MergedSplit(urls[..n], docs[..n]);
      var c := Contribution(urls[n], docs[n]);
      SelectAppend(Contributions(urls[..n], docs[..n]), c, true);
      SelectAppend(Contributions(urls[..n], docs[..n]), c, false);
      if urls[n].isPrivate {
        SelectSelect(docs[n].subs, true, true);
        SelectSelect(docs[n].subs, true, false);
      }
    }
  }
}

=== FILE: operations.dfy ===
/** The operation catalog (`allowedOperations`) and the compiler of a rule's
    operation list, both as written and corrected to honour the catalog's
    arities. A transform returns the record it was given, changed in place,
    or the removal signal (`null`). */
module Operations {
  import opened Results
  import opened Json
  import opened Jcal
  import opened Host

  /** A compiled operation. `Unbound` is an `edit` or `editRegex` entry
      compiled with no arguments, as the compiler as written does: its key
      is `undefined`, so it matches no line. */
  datatype Op =
    | Remove
    | Edit(key: string, value: string)
    | EditRegex(key: string, pattern: string, replacement: string)
    | Unbound(name: string)

  /** `b` has the lines of `a`, by name and in order: what every transform
      keeps, since it only ever rewrites a value. */
  predicate SameLines(a: Record, b: Record) {
    |a| == |b| && forall i :: 0 <= i < |a| ==> a[i].name == b[i].name
  }

  /** `dataLine[3] = v`: writing index 3 of a three-element line appends. */
  function SetValue(l: Line, v: string): (r: Line)
    ensures r.name == l.name && r.params == l.params && r.valueType == l.valueType
    ensures HasValue(r) && r.values[0] == v
    ensures |r.values| == if HasValue(l) then |l.values| else 1
    ensures forall k :: 1 <= k < |l.values| ==> r.values[k] == l.values[k]
  {
    if HasValue(l) then l.(values := l.values[0 := v]) else l.(values := [v])
  }

  /** The `edit` transform: sets the value of the first line called `key`. */
  function EditRecord(rec: Record, key: string, value: string): (r: Record)
    ensures |r| == |rec|
    ensures FirstNamed(rec, key).None? ==> r == rec
    ensures FirstNamed(rec, key).Some? ==>
              var i := FirstNamed(rec, key).value;
              r[i] == SetValue(rec[i], value) && forall j :: 0 <= j < |rec| && j != i ==> r[j] == rec[j]
  {
    match FirstNamed(rec, key)
    case None => rec
    case Some(i) => rec[i := SetValue(rec[i], value)]
  }

  /** One transform applied to a record: Some(record) to carry on, None for
      the removal signal, or the exception it throws. `editRegex` compiles
      its pattern before it scans, and reads `replace` of `undefined` when
      the matching line has no value. */
  function Apply(op: Op, rec: Record, re: RegexEngine): (r: Result<Option<Record>, Fault>)
    ensures r.Success? && r.value.None? <==> op.Remove?
    ensures r.Failure? <==>
              && op.EditRegex?
              && (!re.compiles(op.pattern)
                  || (FirstNamed(rec, op.key).Some? && !HasValue(rec[FirstNamed(rec, op.key).value])))
    ensures r.Success? && r.value.Some? ==> SameLines(r.value.value, rec)
    ensures op.EditRegex? && r.Success? && FirstNamed(rec, op.key).Some? ==>
              var i := FirstNamed(rec, op.key).value;
              && r.value.Some? && |r.value.value| == |rec| && HasValue(r.value.value[i])
              && r.value.value[i].values[0] == re.replace(op.pattern, rec[i].values[0], op.replacement)
    ensures (op.Edit? || op.EditRegex?) && FirstNamed(rec, op.key).None? && r.Success? ==> r == Success(Some(rec))
    ensures op.Unbound? ==> r == Success(Some(rec))
  {
    match op
    case Remove => Success(None)
    case Edit(key, value) => Success(Some(EditRecord(rec, key, value)))
    case EditRegex(key, pattern, replacement) =>
      if !re.compiles(pattern) then Failure(BadPattern)
      else
        (match FirstNamed(rec, key)
         case None => Success(Some(rec))
         case Some(i) =>
           if !HasValue(rec[i]) then Failure(UndefinedAccess)
           else
             var v := re.replace(pattern, rec[i].values[0], replacement);
             Success(Some(rec[i := SetValue(rec[i], v)])))
    case Unbound(_) => Success(Some(rec))
  }

  /** Editing sets the value an `event.<key>` operand resolves to, and
      leaves every other field's value as it was. */
  lemma EditResolves(rec: Record, key: string, value: string, other: string)
    requires FirstNamed(rec, key).Some?
    ensures FirstValue(EditRecord(rec, key, value), key) == Some(value)
    ensures other != key ==> FirstValue(EditRecord(rec, key, value), other) == FirstValue(rec, other)
  {
    var r := EditRecord(rec, key, value);
    var i := FirstNamed(rec, key).value;
    assert r[i].name == key && HasValue(r[i]);
    var v := FirstValue(r, key);
    var j :| 0 <= j < |r| && r[j].name == key && HasValue(r[j]) && r[j].values[0] == v.value
             && forall i' :: 0 <= i' < j ==> !(r[i'].name == key && HasValue(r[i']));
    assert j == i;
    if other != key {
      FirstValueSameLines(rec, r, other);
    }
  }

  /** Records whose lines called `k` are the same at the same positions
      resolve `k` alike. */
  lemma {:induction false} FirstValueSameLines(a: Record, b: Record, k: string)
    requires |a| == |b|
    requires forall j :: 0 <= j < |a| && (a[j].name == k || b[j].name == k) ==> a[j] == b[j]
    ensures FirstValue(a, k) == FirstValue(b, k)
  {
    if |a| > 0 {
      FirstValueSameLines(a[1..], b[1..], k);
    }
  }

  /** Editing twice with the same arguments is editing once. */
  lemma EditIdempotent(rec: Record, key: string, value: string)
    ensures EditRecord(EditRecord(rec, key, value), key, value) == EditRecord(rec, key, value)
  {
    var r := EditRecord(rec, key, value);
    if FirstNamed(rec, key).Some? {
      var i := FirstNamed(rec, key).value;
      assert FirstNamed(r, key) == Some(i) by {
        assert forall j :: 0 <= j < i ==> r[j].name != key;
        var f := FirstNamed(r, key);
        assert f.Some? by { assert r[i].name == key; }
      }
      assert SetValue(r[i], value) == r[i];
    }
  }

  /** `editRegex` changes at most the value of the first line called `key`:
      every other line, every other part of that line and the record's
      length stay as they were, and with no such line it changes nothing. */
  lemma EditRegexLocal(rec: Record, key: string, pattern: string, replacement: string, re: RegexEngine)
    requires Apply(EditRegex(key, pattern, replacement), rec, re).Success?
    ensures var r := Apply(EditRegex(key, pattern, replacement), rec, re).value;
            && r.Some? && |r.value| == |rec|
            && (FirstNamed(rec, key).None? ==> r.value == rec)
            && forall j :: 0 <= j < |rec| && Some(j) != FirstNamed(rec, key) ==> r.value[j] == rec[j]
    ensures FirstNamed(rec, key).Some? ==>
              var i := FirstNamed(rec, key).value;
              var l := Apply(EditRegex(key, pattern, replacement), rec, re).value.value[i];
              l.name == rec[i].name && l.params == rec[i].params && l.valueType == rec[i].valueType
              && |l.values| == |rec[i].values| && l.values[1..] == rec[i].values[1..]
              && l.values[0] == re.replace(pattern, rec[i].values[0], replacement)
  {
  }

  /** Compiles one configured operation as the code is written: the length
      check admits only one-element arrays, so `["remove"]`, `["edit"]` and
      `["editRegex"]` are the only operations that compile, and the
      catalog's arities are never consulted. */
  function CompileOpAsWritten(j: Json): (r: Result<Op, ConfigError>)
    ensures r.Success? <==> j in {JArray([JString("remove")]), JArray([JString("edit")]), JArray([JString("editRegex")])}
    ensures r.Failure? ==> r.error == InvalidOperation
    ensures r.Success? ==> RenderOp(r.value) == j && WrittenCompilable(r.value)
  {
    if !j.JArray? || |j.items| != 1 || !j.items[0].JString? then Failure(InvalidOperation)
    else
      var name := j.items[0].s;
      assert j == JArray([JString(name)]);
      if name == "remove" then Success(Remove)
      else if name == "edit" || name == "editRegex" then Success(Unbound(name))
      else Failure(InvalidOperation)
  }

  /** The operations the compiler as written produces. */
  predicate WrittenCompilable(op: Op) {
    op.Remove? || (op.Unbound? && op.name in {"edit", "editRegex"})
  }

  /** The configuration JSON of an operation. */
  function RenderOp(op: Op): Json {
    match op
    case Remove => JArray([JString("remove")])
    case Edit(k, v) => JArray([JString("edit"), JString(k), JString(v)])
    case EditRegex(k, p, s) => JArray([JString("editRegex"), JString(k), JString(p), JString(s)])
    case Unbound(n) => JArray([JString(n)])
  }

  lemma WrittenOpRoundTrip(op: Op)
    requires WrittenCompilable(op)
    ensures CompileOpAsWritten(RenderOp(op)) == Success(op)
  {
  }

  /** An operation the compiler as written accepts is the removal signal or
      the identity: no compiled rule can change a record. */
  lemma CompiledOpEffect(j: Json, rec: Record, re: RegexEngine)
    requires CompileOpAsWritten(j).Success?
    ensures Apply(CompileOpAsWritten(j).value, rec, re) == if j == JArray([JString("remove")]) then Success(None) else Success(Some(rec))
  {
  }

  /** The documented `edit` form is refused by the compiler as written and
      accepted by the corrected one, which refuses it with an argument
      missing. */
  lemma EditArgumentsRefused()
    ensures CompileOpAsWritten(JArray([JString("edit"), JString("SUMMARY"), JString("Busy")])) == Failure(InvalidOperation)
    ensures CompileOp(JArray([JString("edit"), JString("SUMMARY"), JString("Busy")])) == Success(Edit("SUMMARY", "Busy"))
    ensures CompileOp(JArray([JString("edit"), JString("SUMMARY")])) == Failure(InvalidOperation)
  {
  }

  /** The catalog's `size`: the length of a configured operation array,
      name included. */
  function Arity(name: string): (r: Option<nat>)
    ensures r.Some? <==> name in {"remove", "edit", "editRegex"}
  {
    if name == "remove" then Some(1)
    else if name == "edit" then Some(3)
    else if name == "editRegex" then Some(4)
    else None
  }

  predicate AllStrings(items: seq<Json>) {
    forall i :: 0 <= i < |items| ==> items[i].JString?
  }

  /** Compiles one configured operation, corrected: the array's length must
      be the catalog's `size` for the named operation, and the remaining
      elements are the transform's arguments. */
  function CompileOp(j: Json): (r: Result<Op, ConfigError>)
    ensures r.Success? <==>
              && j.JArray? && |j.items| >= 1 && AllStrings(j.items)
              && Arity(j.items[0].s) == Some(|j.items|)
    ensures r.Failure? ==> r.error == InvalidOperation
    ensures r.Success? ==> RenderOp(r.value) == j && Compilable(r.value)
  {
    if !j.JArray? || |j.items| == 0 || !j.items[0].JString? then Failure(InvalidOperation)
    else
      var name := j.items[0].s;
      if Arity(name) != Some(|j.items|) then Failure(InvalidOperation)
      else if !AllStrings(j.items) then Failure(InvalidOperation)
      else if name == "remove" then
        assert j == JArray([JString(name)]);
        Success(Remove)
      else if name == "edit" then
        assert j == JArray([JString(name), JString(j.items[1].s), JString(j.items[2].s)]);
        Success(Edit(j.items[1].s, j.items[2].s))
      else
        assert j == JArray([JString(name), JString(j.items[1].s), JString(j.items[2].s), JString(j.items[3].s)]);
        Success(EditRegex(j.items[1].s, j.items[2].s, j.items[3].s))
  }

  /** The operations the corrected compiler produces: every catalog entry
      with its arguments bound. */
  predicate Compilable(op: Op) {
    !op.Unbound?
  }

  lemma OpRoundTrip(op: Op)
    requires Compilable(op)
    ensures CompileOp(RenderOp(op)) == Success(op)
  {
  }

  /** Which operation compiler a configuration goes through: the code as
      written, or the code with its arity check corrected. */
  datatype Dialect = AsWritten | Corrected

  function CompileOpIn(d: Dialect, j: Json): (r: Result<Op, ConfigError>)
    ensures r.Failure? ==> r.error == InvalidOperation
    ensures r.Success? ==> RenderOp(r.value) == j && CompilableIn(d, r.value)
  {
    match d
    case AsWritten => CompileOpAsWritten(j)
    case Corrected => CompileOp(j)
  }

  predicate CompilableIn(d: Dialect, op: Op) {
    match d
    case AsWritten => WrittenCompilable(op)
    case Corrected => Compilable(op)
  }

  lemma OpRoundTripIn(d: Dialect, op: Op)
    requires CompilableIn(d, op)
    ensures CompileOpIn(d, RenderOp(op)) == Success(op)
  {
    match d
    case AsWritten => WrittenOpRoundTrip(op);
    case Corrected => OpRoundTrip(op);
  }

  /** Compiles an operation list, keeping its order. */
  function CompileOps(d: Dialect, items: seq<Json>): (r: Result<seq<Op>, ConfigError>)
    ensures r.Success? <==> forall i :: 0 <= i < |items| ==> CompileOpIn(d, items[i]).Success?
    ensures r.Success? ==> |r.value| == |items| && forall i :: 0 <= i < |items| ==> r.value[i] == CompileOpIn(d, items[i]).value
  {
    if |items| == 0 then Success([])
    else
      var op :- CompileOpIn(d, items[0]);
      var rest :- CompileOps(d, items[1..]);
      assert forall i :: 1 <= i < |items| ==> items[i] == items[1..][i - 1];
      Success([op] + rest)
  }
}

=== FILE: pipeline.dfy ===
/** What a filtered calendar does to a fetched document: the reference
    semantics of the per-event rule loop. Each event record is threaded
    through the rules in order; every rule that does not remove the event
    emits one copy of it, and because every copy is the same object all of
    them show the record as the last rule left it. */
module Pipeline {
  import opened Results
  import opened Jcal
  import opened Host
  import opened Conditions
  import opened Filters
  import opened Operations
  import opened Calendars

  /** Where a transform chain ended: `removed` when a transform returned the
      removal signal, and the record as the transforms that ran left it. */
  datatype Chain = Chain(removed: bool, rec: Record)

  /** Runs transforms in order, stopping at the first removal signal. */
  function RunOps(ops: seq<Op>, rec: Record, re: RegexEngine): (r: Result<Chain, Fault>)
    ensures r.Success? ==> (r.value.removed <==> Remove in ops)
    ensures r.Success? ==> SameLines(r.value.rec, rec)
    ensures (forall k :: 0 <= k < |ops| ==> !ops[k].EditRegex?) ==> r.Success?
  {
    if |ops| == 0 then Success(Chain(false, rec))
    else
      assert ops == [ops[0]] + ops[1..];
      var out :- Apply(ops[0], rec, re);
      match out
      case None => Success(Chain(true, rec))
      case Some(next) => RunOps(ops[1..], next, re)
  }

  /** One rule against the record's current state: a false predicate emits
      the event untouched; a true one runs the transforms, and the rule
      emits nothing when they remove the event. */
  function RunRule(rule: Rule, rec: Record, re: RegexEngine): (r: Result<Chain, Fault>)
    ensures Eval(rule.filter, rec, re).Failure? ==> r.Failure?
    ensures Eval(rule.filter, rec, re) == Success(false) ==> r == Success(Chain(false, rec))
    ensures r.Success? && r.value.removed <==>
              Eval(rule.filter, rec, re) == Success(true) && RunOps(rule.ops, rec, re).Success? && Remove in rule.ops
    ensures r.Success? ==> SameLines(r.value.rec, rec)
  {
    var hit :- Eval(rule.filter, rec, re);
    if !hit then Success(Chain(false, rec)) else RunOps(rule.ops, rec, re)
  }

  /** Copies emitted so far and the record's current state. */
  datatype Tally = Tally(copies: nat, rec: Record)

  /** Runs the rules in order from `t`; a removal by one rule does not stop
      the next, which sees the record as the removed chain left it. */
  function RunRules(rules: seq<Rule>, t: Tally, re: RegexEngine): (r: Result<Tally, Fault>)
    ensures r.Success? ==> t.copies <= r.value.copies <= t.copies + |rules|
    ensures r.Success? ==> SameLines(r.value.rec, t.rec)
  {
    if |rules| == 0 then Success(t)
    else
      var c :- RunRule(rules[0], t.rec, re);
      RunRules(rules[1..], Tally(t.copies + (if c.removed then 0 else 1), c.rec), re)
  }

  /** The output entries for one input entry. */
  function ProcessEntry(rules: seq<Rule>, e: Component, re: RegexEngine): (r: Result<seq<Component>, Fault>)
    ensures !IsEvent(e) ==> r == Success([e])
    ensures IsEvent(e) && r.Success? ==> |r.value| <= |rules|
    ensures r.Success? ==> forall i :: 0 <= i < |r.value| ==>
              r.value[i] == r.value[0] && r.value[i].name == e.name && r.value[i].subs == e.subs
    ensures r.Success? ==> forall i :: 0 <= i < |r.value| ==> SameLines(r.value[i].props, e.props)
  {
    if !IsEvent(e) then Success([e])
    else
      var t :- RunRules(rules, Tally(0, e.props), re);
      Success(Repeat(e.(props := t.rec), t.copies))
  }

  /** Appends the output of `entries` to `acc`, entry by entry; the first
      exception aborts the request. */
  function ApplyRules(rules: seq<Rule>, entries: seq<Component>, acc: seq<Component>, re: RegexEngine): (r: Result<seq<Component>, Fault>)
    ensures r.Success? ==> |acc| <= |r.value| && r.value[..|acc|] == acc
  {
    if |entries| == 0 then Success(acc)
    else
      var out :- ProcessEntry(rules, entries[0], re);
      ApplyRules(rules, entries[1..], acc + out, re)
  }

  /** One step of the entry loop: entry `i`'s output is appended, or its
      exception ends the loop. */
  lemma ApplyRulesStep(rules: seq<Rule>, entries: seq<Component>, i: nat, acc: seq<Component>, re: RegexEngine)
    requires i < |entries|
    ensures ProcessEntry(rules, entries[i], re).Success? ==>
              ApplyRules(rules, entries[i..], acc, re)
              == ApplyRules(rules, entries[i + 1..], acc + ProcessEntry(rules, entries[i], re).value, re)
    ensures ProcessEntry(rules, entries[i], re).Failure? ==>
              ApplyRules(rules, entries[i..], acc, re) == Failure(ProcessEntry(rules, entries[i], re).error)
  {
    assert entries[i..][0] == entries[i] && entries[i..][1..] == entries[i + 1..];
  }

  /** The loop completes exactly when no entry's rules throw. */
  lemma {:induction false} ApplyRulesCompletes(rules: seq<Rule>, entries: seq<Component>, acc: seq<Component>, re: RegexEngine)
    ensures ApplyRules(rules, entries, acc, re).Success? <==>
              forall i :: 0 <= i < |entries| ==> ProcessEntry(rules, entries[i], re).Success?
  {
    if |entries| > 0 {
      match ProcessEntry(rules, entries[0], re)
      case Failure(_) =>
      case Success(out) =>
        ApplyRulesCompletes(rules, entries[1..], acc + out, re);
        assert forall i :: 1 <= i < |entries| ==> entries[i] == entries[1..][i - 1];
    }
  }

  /** The document with its top-level entries replaced (`ical[2] = newEvents`). */
  function FilterDocument(rules: seq<Rule>, doc: Component, re: RegexEngine): (r: Result<Component, Fault>)
    ensures r.Success? ==> r.value.name == doc.name && r.value.props == doc.props
  {
    var subs :- ApplyRules(rules, doc.subs, [], re);
    Success(doc.(subs := subs))
  }

  /** Once a transform returns the removal signal, the transforms after it
      never run; the record keeps what the transforms before it did, and
      the next rule sees it so. */
  lemma {:induction false} RemovalDominance(pre: seq<Op>, post: seq<Op>, rec: Record, re: RegexEngine)
    ensures RunOps(pre + [Remove] + post, rec, re) == RunOps(pre + [Remove], rec, re)
    ensures RunOps(pre + [Remove], rec, re).Success? ==> RunOps(pre + [Remove], rec, re).value.removed
    ensures RunOps(pre, rec, re).Success? && !RunOps(pre, rec, re).value.removed ==>
              RunOps(pre + [Remove], rec, re) == Success(Chain(true, RunOps(pre, rec, re).value.rec))
  {
    if |pre| == 0 {
      assert ([] + [Remove] + post)[0] == Remove;
      assert ([] + [Remove])[0] == Remove;
    } else {
      assert (pre + [Remove] + post)[0] == pre[0];
      assert (pre + [Remove])[0] == pre[0];
      assert (pre + [Remove] + post)[1..] == pre[1..] + [Remove] + post;
      assert (pre + [Remove])[1..] == pre[1..] + [Remove];
      match Apply(pre[0], rec, re)
      case Failure(_) =>
      case Success(None) =>
      case Success(Some(next)) =>
        RemovalDominance(pre[1..], post, next, re);
    }
  }

  /** With every predicate false on the record, the record never changes
      and every rule emits a copy. */
  lemma {:induction false} NoRuleMatches(rules: seq<Rule>, t: Tally, re: RegexEngine)
    requires forall i :: 0 <= i < |rules| ==> Eval(rules[i].filter, t.rec, re) == Success(false)
    ensures RunRules(rules, t, re) == Success(Tally(t.copies + |rules|, t.rec))
  {
    if |rules| > 0 {
      NoRuleMatches(rules[1..], Tally(t.copies + 1, t.rec), re);
    }
  }

  /** An event none of n rules matches is emitted n times, unchanged; with
      no rules at all it disappears. */
  lemma UnmatchedEvent(rules: seq<Rule>, e: Component, re: RegexEngine)
    requires IsEvent(e)
    requires forall i :: 0 <= i < |rules| ==> Eval(rules[i].filter, e.props, re) == Success(false)
    ensures ProcessEntry(rules, e, re) == Success(Repeat(e, |rules|))
  {
    NoRuleMatches(rules, Tally(0, e.props), re);
  }

  /** Transforms the operation compiler as written can produce never alter
      the record: the chain ends with the record it started with, removed
      exactly when it holds a `remove`. */
  lemma {:induction false} CompiledChainKeepsRecord(ops: seq<Op>, rec: Record, re: RegexEngine)
    requires forall k :: 0 <= k < |ops| ==> WrittenCompilable(ops[k])
    ensures RunOps(ops, rec, re) == Success(Chain(Remove in ops, rec))
  {
    if |ops| > 0 {
      CompiledChainKeepsRecord(ops[1..], rec, re);
      if ops[0] != Remove {
        assert Remove in ops <==> Remove in ops[1..] by {
          assert ops == [ops[0]] + ops[1..];
        }
      }
    }
  }

  /** A rule whose operations the compiler as written can produce. */
  predicate WrittenRule(rule: Rule) {
    forall k :: 0 <= k < |rule.ops| ==> WrittenCompilable(rule.ops[k])
  }

  /** Under rules the operation compiler as written can produce, an event's
      record reaches the output as it came in, and it is emitted once per
      rule whose predicate is false or whose operations hold no `remove`. */
  lemma {:induction false} CompiledRulesKeepRecord(rules: seq<Rule>, t: Tally, re: RegexEngine)
    requires forall i :: 0 <= i < |rules| ==> WrittenRule(rules[i])
    requires RunRules(rules, t, re).Success?
    ensures RunRules(rules, t, re).value.rec == t.rec
    ensures RunRules(rules, t, re).value.copies == t.copies + Emitting(rules, t.rec, re)
  {
    if |rules| > 0 {
      CompiledChainKeepsRecord(rules[0].ops, t.rec, re);
      var c := RunRule(rules[0], t.rec, re).value;
      assert c.rec == t.rec;
      assert c.removed <==> !(Eval(rules[0].filter, t.rec, re) == Success(false) || Remove !in rules[0].ops);
      var next := Tally(t.copies + (if c.removed then 0 else 1), c.rec);
      assert RunRules(rules, t, re) == RunRules(rules[1..], next, re);
      assert forall i :: 0 <= i < |rules[1..]| ==> WrittenRule(rules[1..][i]);
      CompiledRulesKeepRecord(rules[1..], next, re);
    }
  }

  /** How many rules emit a record that no rule changes: those whose
      predicate is false, and those whose operations hold no `remove`. */
  function Emitting(rules: seq<Rule>, rec: Record, re: RegexEngine): nat {
    if |rules| == 0 then 0
    else
      var e := Eval(rules[0].filter, rec, re);
      (if e == Success(false) || Remove !in rules[0].ops then 1 else 0) + Emitting(rules[1..], rec, re)
  }

  /** Entries other than events pass through exactly once each, unchanged
      and in their original order. */
  lemma {:induction false} NonEventsPassThrough(rules: seq<Rule>, entries: seq<Component>, acc: seq<Component>, re: RegexEngine)
    requires ApplyRules(rules, entries, acc, re).Success?
    ensures Select(ApplyRules(rules, entries, acc, re).value, false) == Select(acc, false) + Select(entries, false)
  {
    if |entries| > 0 {
      var e := entries[0];
      var out := ProcessEntry(rules, e, re).value;
      assert ApplyRules(rules, entries, acc, re) == ApplyRules(rules, entries[1..], acc + out, re);
      NonEventsPassThrough(rules, entries[1..], acc + out, re);
      SelectAppend(acc, out, false);
      EntryNonEvents(rules, e, re);
      SelectStep(acc, out, entries);
    }
  }

  /** The sequence algebra of one step of `NonEventsPassThrough`. */
  lemma SelectStep(acc: seq<Component>, out: seq<Component>, entries: seq<Component>)
    requires |entries| > 0
    requires Select(out, false) == if IsEvent(entries[0]) then [] else [entries[0]]
    ensures Select(acc, false) + Select(out, false) + Select(entries[1..], false) == Select(acc, false) + Select(entries, false)
  {
  }

  /** One entry's output holds the entry itself when it is not an event,
      and no entry other than an event when it is. */
  lemma EntryNonEvents(rules: seq<Rule>, e: Component, re: RegexEngine)
    requires ProcessEntry(rules, e, re).Success?
    ensures Select(ProcessEntry(rules, e, re).value, false) == if IsEvent(e) then [] else [e]
  {
    var out := ProcessEntry(rules, e, re).value;
    if IsEvent(e) {
      SelectAll(out, true);
    } else {
      SelectAll(out, false);
    }
  }

  /** With an empty rule list every event is dropped and nothing else is. */
  lemma {:induction false} NoRulesDropsEvents(entries: seq<Component>, acc: seq<Component>, re: RegexEngine)
    ensures ApplyRules([], entries, acc, re) == Success(acc + Select(entries, false))
  {
    if |entries| > 0 {
      var out := ProcessEntry([], entries[0], re).value;
      assert out == if IsEvent(entries[0]) then [] else [entries[0]];
      assert ApplyRules([], entries, acc, re) == ApplyRules([], entries[1..], acc + out, re);
      NoRulesDropsEvents(entries[1..], acc + out, re);
      assert acc + out + Select(entries[1..], false) == acc + Select(entries, false);
    } else {
      assert acc + [] == acc;
    }
  }
  /** A filter that holds of every record (`negate` false) or of none. */
  function Constant(holds: bool): Filter {
    If(Literal(""), StrictEq, Literal(""), !holds)
  }

  /** Copies share one record: an event emitted by a first, non-matching
      rule and again by a second rule that edits it comes out twice, and
      both copies carry the edit, including the one pushed before the edit
      ran. */
  lemma {:induction false} EarlierCopyShowsLaterEdit(e: Component, key: string, value: string, re: RegexEngine)
    requires IsEvent(e)
    ensures var edited := e.(props := EditRecord(e.props, key, value));
            ProcessEntry([Rule(Constant(false), [Remove]), Rule(Constant(true), [Edit(key, value)])], e, re)
            == Success([edited, edited])
  {
    var rules := [Rule(Constant(false), [Remove]), Rule(Constant(true), [Edit(key, value)])];
    assert RunRule(rules[0], e.props, re) == Success(Chain(false, e.props));
    assert RunOps([Edit(key, value)], e.props, re) == Success(Chain(false, EditRecord(e.props, key, value)));
    assert RunRules(rules[1..], Tally(1, e.props), re) == Success(Tally(2, EditRecord(e.props, key, value)));
    assert Repeat(e.(props := EditRecord(e.props, key, value)), 2) == [e.(props := EditRecord(e.props, key, value)), e.(props := EditRecord(e.props, key, value))];
  }

  /** With the operation compiler as written, no filtered calendar that
      compiles (every such descriptor is expressible) can change an event's
      record: edits never reach the output. */
  lemma AsWrittenCalendarsNeverEdit(c: Calendar, urlOk: string -> bool, t: Tally, re: RegexEngine)
    requires Calendars.Expressible(c, urlOk, AsWritten) && c.Filtered?
    requires RunRules(c.rules, t, re).Success?
    ensures RunRules(c.rules, t, re).value.rec == t.rec
  {
    assert forall i :: 0 <= i < |c.rules| ==> WrittenRule(c.rules[i]) by {
      assert forall i :: 0 <= i < |c.rules| ==> ExpressibleRule(c.rules[i], AsWritten);
    }
    CompiledRulesKeepRecord(c.rules, t, re);
  }
}

=== FILE: request_loop.dfy ===
/** The per-event rule loop of the calendar request handler. The loop
    pushes a reference to the entry for every rule that does not remove
    it, while the transforms change the entry's record object in place, so
    copies pushed before a later rule's transforms still show their
    effect when the list is serialised. */
module RequestLoop {
  import opened Results
  import opened Jcal
  import opened Host
  import opened Filters
  import opened Operations
  import opened Calendars
  import opened Pipeline
  import opened Store

  function Identity(n: nat): (r: seq<nat>)
    ensures |r| == n && forall k :: 0 <= k < n ==> r[k] == k
  {
    seq(n, k => k)
  }

  /** A rule's transforms run on the record object at `ref`, in order,
      until one returns the removal signal (`Success(true)`). */
  method RunChain(ops: seq<Op>, heap: seq<Record>, ref: nat, re: RegexEngine)
    returns (heap': seq<Record>, eventData: nat, out: Result<bool, Fault>)
    requires ref < |heap|
    ensures |heap'| == |heap| && forall m :: 0 <= m < |heap| && m != ref ==> heap'[m] == heap[m]
    ensures eventData == ref
    ensures out.Failure? ==> RunOps(ops, heap[ref], re) == Failure(out.error)
    ensures out.Success? ==> RunOps(ops, heap[ref], re) == Success(Chain(out.value, heap'[ref]))
  {
    heap' := heap;
    eventData := ref;
    var k := 0;
    while k < |ops|
      invariant 0 <= k <= |ops| && eventData == ref && |heap'| == |heap|
      invariant forall m :: 0 <= m < |heap| && m != ref ==> heap'[m] == heap[m]
      invariant RunOps(ops, heap[ref], re) == RunOps(ops[k..], heap'[ref], re)
    {
      assert ops[k..][0] == ops[k] && ops[k..][1..] == ops[k + 1..];
      var newEventData;
      heap', newEventData := ApplyInPlace(ops[k], heap', eventData, re);
      if newEventData.Failure? {
        return heap', eventData, Failure(newEventData.error);
      }
      if newEventData.value.None? {
        return heap', eventData, Success(true);
      }
      eventData := newEventData.value.value;
      k := k + 1;
    }
    assert ops[k..] == [];
    out := Success(false);
  }

  /** The rules run on one event whose record object is at `event`: the
      entry is pushed once for every rule that does not remove it, and the
      number of copies pushed is returned. */
  method EventRules(rules: seq<Rule>, heap: seq<Record>, event: nat, newEvents: seq<nat>, re: RegexEngine)
    returns (heap': seq<Record>, newEvents': seq<nat>, r: Result<nat, Fault>)
    requires event < |heap|
    ensures |heap'| == |heap| && forall m :: 0 <= m < |heap| && m != event ==> heap'[m] == heap[m]
    ensures r.Failure? ==> RunRules(rules, Tally(0, heap[event]), re) == Failure(r.error)
    ensures r.Success? ==> RunRules(rules, Tally(0, heap[event]), re) == Success(Tally(r.value, heap'[event]))
    ensures r.Success? ==> newEvents' == newEvents + Refs(event, r.value)
  {
    heap' := heap;
    newEvents' := newEvents;
    var eventData := event;
    var copies: nat := 0;
    var j := 0;
    while j < |rules|
      invariant 0 <= j <= |rules| && eventData == event && |heap'| == |heap|
      invariant forall m :: 0 <= m < |heap| && m != event ==> heap'[m] == heap[m]
      invariant newEvents' == newEvents + Refs(event, copies)
      invariant RunRules(rules, Tally(0, heap[event]), re) == RunRules(rules[j..], Tally(copies, heap'[event]), re)
    {
      var rule := rules[j];
      assert rules[j..][0] == rule && rules[j..][1..] == rules[j + 1..];
      var hit := Eval(rule.filter, heap'[eventData], re);
      if hit.Failure? {
        return heap', newEvents', Failure(hit.error);
      }
      if !hit.value {
        newEvents' := newEvents' + [event];
        assert newEvents' == newEvents + Refs(event, copies + 1);
        copies := copies + 1;
        j := j + 1;
        continue;
      }
      var remove;
      heap', eventData, remove := RunChain(rule.ops, heap', eventData, re);
      if remove.Failure? {
        return heap', newEvents', Failure(remove.error);
      }
      if !remove.value {
        newEvents' := newEvents' + [event];
        assert newEvents' == newEvents + Refs(event, copies + 1);
        copies := copies + 1;
      }
      j := j + 1;
    }
    assert rules[j..] == [];
    r := Success(copies);
  }

  /** The new entry list of a filtered calendar, as the handler builds it. */
  method FilterEntries(rules: seq<Rule>, entries: seq<Component>, re: RegexEngine) returns (r: Result<seq<Component>, Fault>)
    ensures r == ApplyRules(rules, entries, [], re)
  {
    var n := |entries|;
    var heap := seq(n, k requires 0 <= k < n => entries[k].props);
    var slots := Identity(n);
    var newEvents: seq<nat> := [];
    var i := 0;
    while i < n
      invariant 0 <= i <= n && |heap| == n && slots == Identity(n)
      invariant forall k :: i <= k < n ==> heap[k] == entries[k].props
      invariant forall k :: 0 <= k < |newEvents| ==> newEvents[k] < i
      invariant ApplyRules(rules, entries, [], re) == ApplyRules(rules, entries[i..], View(entries, heap, slots, newEvents), re)
    {
      var event := i;
      ApplyRulesStep(rules, entries, i, View(entries, heap, slots, newEvents), re);
      if !IsEvent(entries[event]) {
        ViewPush(entries, heap, slots, newEvents, event, 1);
        assert entries[event].(props := heap[slots[event]]) == entries[event];
        assert Repeat(entries[event], 1) == [entries[event]];
        assert Refs(event, 1) == [event];
        newEvents := newEvents + [event];
        i := i + 1;
        continue;
      }
      ghost var base := newEvents;
      ghost var heap0 := heap;
      var heap', pushed, copies := EventRules(rules, heap, slots[event], newEvents, re);
      if copies.Failure? {
        r := Failure(copies.error);
        return;
      }
      heap, newEvents := heap', pushed;
      assert ProcessEntry(rules, entries[event], re) == Success(Repeat(entries[event].(props := heap[event]), copies.value));
      ViewFrame(entries, heap0, heap, slots, base);
      ViewPush(entries, heap, slots, base, event, copies.value);
      i := i + 1;
    }
    r := Success(View(entries, heap, slots, newEvents));
  }
}

=== FILE: results.dfy ===
/** Option and Result, usable with `:-`, plus the error vocabularies of the
    rule engine: configuration errors thrown while compiling, and faults
    thrown while evaluating a compiled rule set against an event. */
module Results {

  datatype Option<+T> = None | Some(value: T) {
    predicate IsFailure() { None? }

    function PropagateFailure<U>(): Option<U>
      requires None?
    {
      None
    }

    function Extract(): T
      requires Some?
    {
      value
    }

    function GetOr(default: T): T {
      match this
      case Some(v) => v
      case None => default
    }
  }

  datatype Result<+T, +E> = Success(value: T) | Failure(error: E) {
    predicate IsFailure() { Failure? }

    function PropagateFailure<U>(): Result<U, E>
      requires Failure?
    {
      Failure(error)
    }

    function Extract(): T
      requires Success?
    {
      value
    }
  }

  /** Why compiling a calendar configuration threw. The messages of the
      thrown errors are not modelled; one constructor per distinct check. */
  datatype ConfigError =
    | InvalidName
    | NotAnObject
    | MissingType
    | InvalidType
    | MissingUrl
    | InvalidUrl
    | InvalidRules
    | MissingFilter
    | InvalidFilter
    | InvalidFilterKey
    | InvalidOperator
    | MissingOperations
    | InvalidOperation
    | MissingUrls
    | InvalidUrls
    | EmptyUrls
    | MissingPrivate
    | InvalidPrivate
      /** A JavaScript TypeError raised by the compiler itself: a property
          read on `null`, or `toLowerCase` on a non-string operator. */
    | TypeError

  /** An exception thrown while a request applies the rules; it aborts the
      whole request. */
  datatype Fault =
      /** A TypeError: calling `undefined` (a filter that compiled to
          nothing), or using a property of `undefined` or `null` (`indexOf`,
          `replace`, the entry list of a document never fetched). */
    | UndefinedAccess
      /** `new RegExp(p)` on a pattern that is not a valid expression. */
    | BadPattern
}

=== FILE: store.dfy ===
/** The objects the request loops share. The loops hold references, not
    values: an entry's element 1 (`event[1]`) is a reference to a record
    object, and the output list holds references to entries. The record
    objects live in `heap`; `slots[e]` is the record entry `e` points to. */
module Store {
  import opened Results
  import opened Jcal
  import opened Host
  import opened Operations

  predicate ValidStore(entries: seq<Component>, heap: seq<Record>, slots: seq<nat>) {
    |slots| == |entries| && forall e :: 0 <= e < |slots| ==> slots[e] < |heap|
  }

  predicate ValidRefs(entries: seq<Component>, refs: seq<nat>) {
    forall k :: 0 <= k < |refs| ==> refs[k] < |entries|
  }

  /** What the serialiser sees: each referenced entry with the record its
      element 1 points to at that moment. */
  function View(entries: seq<Component>, heap: seq<Record>, slots: seq<nat>, refs: seq<nat>): (r: seq<Component>)
    requires ValidStore(entries, heap, slots) && ValidRefs(entries, refs)
    ensures |r| == |refs|
    ensures forall k :: 0 <= k < |refs| ==> r[k] == entries[refs[k]].(props := heap[slots[refs[k]]])
  {
    seq(|refs|, k requires 0 <= k < |refs| => entries[refs[k]].(props := heap[slots[refs[k]]]))
  }

  /** `n` references to entry `e`. */
  function Refs(e: nat, n: nat): (r: seq<nat>)
    ensures |r| == n && forall k :: 0 <= k < n ==> r[k] == e
  {
    seq(n, _ => e)
  }

  /** Pushing `n` more references to entry `e` appends `n` views of it. */
  lemma ViewPush(entries: seq<Component>, heap: seq<Record>, slots: seq<nat>, refs: seq<nat>, e: nat, n: nat)
    requires ValidStore(entries, heap, slots) && ValidRefs(entries, refs) && e < |entries|
    ensures ValidRefs(entries, refs + Refs(e, n))
    ensures View(entries, heap, slots, refs + Refs(e, n))
            == View(entries, heap, slots, refs) + Repeat(entries[e].(props := heap[slots[e]]), n)
  {
  }

  /** Changing records that no listed entry points to changes no view. */
  lemma ViewFrame(entries: seq<Component>, heap: seq<Record>, heap': seq<Record>, slots: seq<nat>, refs: seq<nat>)
    requires ValidStore(entries, heap, slots) && ValidRefs(entries, refs) && |heap'| == |heap|
    requires forall k :: 0 <= k < |refs| ==> heap'[slots[refs[k]]] == heap[slots[refs[k]]]
    ensures View(entries, heap', slots, refs) == View(entries, heap, slots, refs)
  {
  }

  /** A transform run on the record object at `ref`: it changes that object
      in place and returns the same reference, or returns the removal
      signal, or throws. */
  method ApplyInPlace(op: Op, heap: seq<Record>, ref: nat, re: RegexEngine) returns (heap': seq<Record>, out: Result<Option<nat>, Fault>)
    requires ref < |heap|
    ensures |heap'| == |heap|
    ensures forall k :: 0 <= k < |heap| && k != ref ==> heap'[k] == heap[k]
    ensures Apply(op, heap[ref], re).Failure? ==> out == Failure(Apply(op, heap[ref], re).error)
    ensures Apply(op, heap[ref], re) == Success(None) ==> out == Success(None) && heap' == heap
    ensures Apply(op, heap[ref], re).Success? && Apply(op, heap[ref], re).value.Some? ==>
              out == Success(Some(ref)) && heap'[ref] == Apply(op, heap[ref], re).value.value
  {
    heap' := heap;
    var res := Apply(op, heap[ref], re);
    if res.Failure? {
      out := Failure(res.error);
    } else if res.value.None? {
      out := Success(None);
    } else {
      heap' := heap[ref := res.value.value];
      out := Success(Some(ref));
    }
  }
}

=== FILE: update_loop.dfy ===
/** The per-event rule loop of the filtered-calendar updater. It differs
    from the request handler's loop in one step: before pushing the entry
    for a rule whose transforms ran without removing it, it writes the
    record reference the transforms returned back into the entry
    (`event[1] = eventData`). Since every transform returns the very object
    it was given, that write-back changes nothing, and the output is the
    request handler's. */
module UpdateLoop {
  import opened Results
  import opened Jcal
  import opened Host
  import opened Filters
  import opened Operations
  import opened Calendars
  import opened Pipeline
  import opened Store
  import RequestLoop

  /** The rules run on one event, as the updater runs them: after a rule's
      transforms finish without removing the event, the reference they
      returned is written back into the entry before the entry is pushed. */
  method EventRulesWriteBack(rules: seq<Rule>, heap: seq<Record>, slots: seq<nat>, event: nat, newEvents: seq<nat>, re: RegexEngine)
    returns (heap': seq<Record>, slots': seq<nat>, newEvents': seq<nat>, r: Result<nat, Fault>)
    requires event < |heap| && event < |slots| && slots[event] == event
    ensures slots' == slots
    ensures |heap'| == |heap| && forall m :: 0 <= m < |heap| && m != event ==> heap'[m] == heap[m]
    ensures r.Failure? ==> RunRules(rules, Tally(0, heap[event]), re) == Failure(r.error)
    ensures r.Success? ==> RunRules(rules, Tally(0, heap[event]), re) == Success(Tally(r.value, heap'[event]))
    ensures r.Success? ==> newEvents' == newEvents + Refs(event, r.value)
  {
    heap' := heap;
    slots' := slots;
    newEvents' := newEvents;
    var eventData := slots'[event];
    var copies: nat := 0;
    var j := 0;
    while j < |rules|
      invariant 0 <= j <= |rules| && eventData == event && |heap'| == |heap| && slots' == slots
      invariant forall m :: 0 <= m < |heap| && m != event ==> heap'[m] == heap[m]
      invariant newEvents' == newEvents + Refs(event, copies)
      invariant RunRules(rules, Tally(0, heap[event]), re) == RunRules(rules[j..], Tally(copies, heap'[event]), re)
    {
      var rule := rules[j];
      assert rules[j..][0] == rule && rules[j..][1..] == rules[j + 1..];
      var hit := Eval(rule.filter, heap'[eventData], re);
      if hit.Failure? {
        return heap', slots', newEvents', Failure(hit.error);
      }
      if !hit.value {
        newEvents' := newEvents' + [event];
        assert newEvents' == newEvents + Refs(event, copies + 1);
        copies := copies + 1;
        j := j + 1;
        continue;
      }
      var remove;
      heap', eventData, remove := RequestLoop.RunChain(rule.ops, heap', eventData, re);
      if remove.Failure? {
        return heap', slots', newEvents', Failure(remove.error);
      }
      if !remove.value {
        slots' := slots'[event := eventData];
        newEvents' := newEvents' + [event];
        assert newEvents' == newEvents + Refs(event, copies + 1);
        copies := copies + 1;
      }
      j := j + 1;
    }
    assert rules[j..] == [];
    r := Success(copies);
  }

  /** The new entry list of a filtered calendar, as the updater builds it. */
  method UpdateEntries(rules: seq<Rule>, entries: seq<Component>, re: RegexEngine) returns (r: Result<seq<Component>, Fault>)
    ensures r == ApplyRules(rules, entries, [], re)
  {
    var n := |entries|;
    var heap := seq(n, k requires 0 <= k < n => entries[k].props);
    var slots := RequestLoop.Identity(n);
    var newEvents: seq<nat> := [];
    var i := 0;
    while i < n
      invariant 0 <= i <= n && |heap| == n && slots == RequestLoop.Identity(n)
      invariant forall k :: i <= k < n ==> heap[k] == entries[k].props
      invariant forall k :: 0 <= k < |newEvents| ==> newEvents[k] < i
      invariant ApplyRules(rules, entries, [], re) == ApplyRules(rules, entries[i..], View(entries, heap, slots, newEvents), re)
    {
      var event := i;
      ApplyRulesStep(rules, entries, i, View(entries, heap, slots, newEvents), re);
      if !IsEvent(entries[event]) {
        ViewPush(entries, heap, slots, newEvents, event, 1);
        assert entries[event].(props := heap[slots[event]]) == entries[event];
        assert Repeat(entries[event], 1) == [entries[event]];
        assert Refs(event, 1) == [event];
        newEvents := newEvents + [event];
        i := i + 1;
        continue;
      }
      ghost var base := newEvents;
      ghost var heap0 := heap;
      var heap', slots', pushed, copies := EventRulesWriteBack(rules, heap, slots, event, newEvents, re);
      if copies.Failure? {
        r := Failure(copies.error);
        return;
      }
      heap, slots, newEvents := heap', slots', pushed;
      assert ProcessEntry(rules, entries[event], re) == Success(Repeat(entries[event].(props := heap[event]), copies.value));
      ViewFrame(entries, heap0, heap, slots, base);
      ViewPush(entries, heap, slots, base, event, copies.value);
      i := i + 1;
    }
    r := Success(View(entries, heap, slots, newEvents));
  }
}
